=== FILE: README.md ===
# Maintenance planning — a Dafny model

This project models the core of a small maintenance-planning application for industrial
equipment. Its records are the following:

- Equipment types and pieces of equipment.
- Maintenance types: routine inspection "ТО", current repair "ТР" and overhaul "КР".
- Maintenance standards: how often, in months, one maintenance type is due for one
  equipment type.
- Maintenance plans: one scheduled maintenance of one piece of equipment.

The model covers these parts of the application:

- The record types, the plan statuses, the unique columns, and what deleting a row does to
  the rows that refer to it: cascade or clear the column. It also covers the default
  ordering of plans by planned date.
- The input forms: which fields each form supplies and when it rejects its input. This
  includes the rule that the edit form requires an actual date for a plan stored as
  completed without one.
- Scheduling the first three years of plans when equipment is added. Adding, editing and
  deleting plans by hand.
- The calendar feed: one event per plan, titled "equipment - maintenance type", coloured
  by status, and for a planned event by maintenance type.
- The plan generation command. For each standard of each equipment, it tops up the plans
  of the (equipment, maintenance type) pair over a horizon of `years` years. It counts
  from the pair's latest planned date, or from installation when the pair has none. It
  never inserts a second plan on a date the pair already has.
- The demonstration data command:
  - standards for every equipment type, from a fixed frequency table;
  - plans over a 24-month horizon that skip dates more than 30 days in the past;
  - a drawn status for each plan, and for completed plans an actual date between 5 days
    before and 2 days after the planned date;
  - notes chosen by maintenance type and status.

The model represents these things as follows:

- **Dates** are day numbers. A month is exactly 30 days, as in the source.
- **The database** is `Models.Db`: one sequence per table, a set of user accounts, and
  one counter that supplies fresh row ids.
- **The invariant** `Models.Valid` says that keys are unique, every foreign key resolves
  and ids are fresh.
- **Python's `//`** is `Schedule.FloorDiv`, which rounds toward minus infinity.
- **"Today", the acting user and the random draws** are parameters. The draws are an
  oracle `draws: Id -> Draw`, so plan `id` gets the status and date offset `draws(id)`.

Modules, one per file:

| file | contents |
|---|---|
| `wrappers.dfy` | `Wrappers`: `Option` and `Result` |
| `seqs.dfy` | `Seqs`: filtering, first match, mapping with failure, key uniqueness |
| `models.dfy` | `Models`: records, status codes, keys, store invariant, lookups |
| `schedule.dfy` | `Schedule`: 30-day-month date projection and appending generated plans |
| `ordering.dfy` | `Ordering`: ascending planned-date order |
| `deletion.dfy` | `Deletion`: cascading and nulling deletes |
| `forms.dfy` | `Forms`: form fields and validation |
| `views.dfy` | `Views`: the request handlers that change the store |
| `calendar.dfy` | `Calendar`: the calendar feed |
| `generator.dfy` | `Generator`: the plan generation command |
| `seed.dfy` | `Seed`: the demonstration data command |

Three behaviours of the code are easy to misread, and the model keeps them as written:

- **The generator's skip test.** The generator first skips a standard whose pair already
  has at least `years*12 // F` plans. Otherwise it asks for `years*12 // F` new dates,
  counted from the pair's latest plan. So a pair with some plans, but fewer than
  `years*12 // F`, gets a full `years*12 // F` more plans, not the missing difference.
  `Generator.GenerateForStandard` states exactly this for one standard, and
  `Generator.GenerateForStandardsOutcome` for every standard of a run.
- **Defaulting the actual date.** Every save through the edit form of a plan whose status
  is completed and whose actual date is empty fills in today's date. This happens
  whatever the previous status was. `Views.EditPlan` states this. The add form saves the
  actual date as given (`Views.AddPlan`).
- **The edit form's required actual date.** Whether the form requires an actual date
  depends on the plan as stored before the edit, not on the submitted status. This is
  `Forms.ActualDateRequired`.

## Model

| member | source | states |
|---|---|---|
| Models.ParseStatus | maintenance/models.py:57-62 | exactly the four stored status codes are accepted, and the status read back has the code that was read |
| Models.ParseStatusCode | maintenance/models.py:57-68 | reading back the stored code of any status gives that status |
| Models.KindOf | maintenance/management/commands/seed_data.py:63-67 | a type code stands for inspection, current repair or overhaul exactly when it is "ТО", "ТР" or "КР" |
| Models.FindMaintenanceType | maintenance/models.py:65 | a plan's maintenance type resolves to a stored row with that key, and fails exactly when no such row exists |
| Models.StandardsFor | maintenance/management/commands/generate_maintenance_plans.py:32-34 | the standards of an equipment type are exactly the stored standards for that type |
| Models.StandardsForDistinctTypes | maintenance/models.py:53 | since (equipment type, maintenance type) is unique, the standards of one equipment type have distinct maintenance types |
| Schedule.FloorDiv | maintenance/management/commands/generate_maintenance_plans.py:50-51 | the quotient is rounded toward minus infinity for either sign of divisor |
| Schedule.Project | maintenance/management/commands/generate_maintenance_plans.py:66-72 | the projected dates are period i = 1..n at anchor + F*30*i, and there are none for n <= 0 |
| Schedule.ProjectIncreasing | maintenance/management/commands/generate_maintenance_plans.py:66-72 | for F > 0 the projected dates lie strictly after the anchor and strictly increase |
| Schedule.AppendedValid | maintenance/management/commands/generate_maintenance_plans.py:81-86 | appending generated plans with fresh ids, for stored equipment and stored maintenance types, keeps the store invariant |
| Generator.RequestedCount | maintenance/management/commands/generate_maintenance_plans.py:37-51 | the requested count is the number of whole frequency periods in years*12 months |
| Generator.LatestDate | maintenance/management/commands/generate_maintenance_plans.py:54-57 | the latest date is the planned date of one of the plans and no plan is later, and there is none for no plans |
| Generator.Anchor | maintenance/management/commands/generate_maintenance_plans.py:54-64 | no plan of the pair is dated after the anchor, and the anchor is the installation date when the pair has no plans |
| Generator.AnchorIsLatest | maintenance/management/commands/generate_maintenance_plans.py:54-61 | when the pair has plans, one of them is dated exactly on the anchor, so the anchor is the latest planned date of the pair |
| Generator.InsertSlot | maintenance/management/commands/generate_maintenance_plans.py:74-87 | a plan is created exactly when the pair has none on that date; afterwards the date is taken and no slot is repeated |
| Generator.InsertMissing | maintenance/management/commands/generate_maintenance_plans.py:66-87 | only new planned plans of the pair, on the given dates, are appended; every date ends up taken and no new plan repeats a slot |
| Generator.InsertMissingAll | maintenance/management/commands/generate_maintenance_plans.py:74-87 | when the dates strictly increase and lie after every plan of the pair, the existence check never rejects, so one plan is created per date |
| Generator.PairCountGrows | maintenance/management/commands/generate_maintenance_plans.py:44-47 | the pair's plan count grows by exactly the number of plans appended for it |
| Generator.CandidateDates | maintenance/management/commands/generate_maintenance_plans.py:50-72 | there are years*12 // F candidates (none when that is not positive), and candidate i (from 0) is the anchor plus F*30*(i + 1) days |
| Generator.CandidatesAfterAnchor | maintenance/management/commands/generate_maintenance_plans.py:59-72 | the candidate dates strictly increase and lie after every existing plan of the pair |
| Generator.TopUp | maintenance/management/commands/generate_maintenance_plans.py:49-87 | a pair with too few plans gets years*12 // F new ones and is saturated afterwards |
| Generator.GenerateForStandard | maintenance/management/commands/generate_maintenance_plans.py:39-87 | nothing is created exactly when the pair already has the requested count or F <= 0; otherwise the full requested count is created, each new plan is dated on a candidate date, and every candidate date has a plan of the pair; the pair ends saturated |
| Generator.GenerateForStandards | maintenance/management/commands/generate_maintenance_plans.py:39-87 | after running each standard in turn, every standard is saturated, the new plans are those of the equipment, and each new plan has the type of one of the standards |
| Generator.StandardRunOutcome | maintenance/management/commands/generate_maintenance_plans.py:39-87 | one standard's run adds nothing when its pair is saturated, and otherwise exactly the requested count of plans of the pair, each on a candidate date |
| Generator.GenerateForStandardsOutcome | maintenance/management/commands/generate_maintenance_plans.py:39-87 | with distinct maintenance types, each standard of a run gets nothing when its pair was already saturated before the run, and otherwise exactly years*12 // F plans of its pair, all on its candidate dates |
| Generator.GenerateForEquipment | maintenance/management/commands/generate_maintenance_plans.py:31-92 | generation for one equipment appends only its plans, with fresh slots, and saturates every standard of its type |
| Generator.GenerateForEquipmentOutcome | maintenance/management/commands/generate_maintenance_plans.py:31-87 | when (equipment type, maintenance type) is unique among standards, which the store enforces, each standard of the equipment's type contributes exactly its outcome: nothing if saturated, else the requested count on candidate dates |
| Generator.GenerateForStandardsSaturated | maintenance/management/commands/generate_maintenance_plans.py:49-50 | running standards that are all saturated creates nothing |
| Generator.GenerateForEquipmentIdempotent | maintenance/management/commands/generate_maintenance_plans.py:31-92 | a second run right after the first creates nothing and leaves the store unchanged |
| Generator.GenerateForEquipmentValid | maintenance/management/commands/generate_maintenance_plans.py:81-86 | generation for stored equipment keeps the store invariant |
| Generator.GenerateAll | maintenance/management/commands/generate_maintenance_plans.py:23-25 | running every equipment in turn saturates every (equipment, standard) pair and never repeats a slot; every new plan is planned, with no actual date, notes or users, for one of the equipment and of the type of one of its type's standards |
| Generator.Handle | maintenance/management/commands/generate_maintenance_plans.py:17-29 | the command appends plans, repeats no slot, and saturates every standard of every stored equipment; every new plan is a planned plan of a stored equipment and of the type of one of its type's standards |
| Generator.GenerateAllSaturated | maintenance/management/commands/generate_maintenance_plans.py:23-25 | when every pair is already saturated the command creates nothing |
| Generator.HandleIdempotent | maintenance/management/commands/generate_maintenance_plans.py:17-29 | run again right away, the command creates nothing |
| Generator.HandleValid | maintenance/management/commands/generate_maintenance_plans.py:17-29 | the command keeps a consistent store consistent |
| Views.InitialDatesAfterInstallation | maintenance/views.py:61-64 | the initial dates of a standard lie strictly after installation and strictly increase |
| Views.InitialPlans | maintenance/views.py:53-72 | one planned plan per period of each positive-frequency standard, with consecutive ids, dated after installation, of a scheduled type |
| Views.InitialPlansPerStandard | maintenance/views.py:53-72 | with distinct maintenance types, each standard's plans carry exactly periods 1..36 // F after installation, in order |
| Views.CreateMaintenancePlans | maintenance/views.py:43-75 | the count returned is the number of plans appended; the plans are planned plans of the new equipment, dated after installation, of a scheduled type |
| Views.CreateMaintenancePlansSchedule | maintenance/views.py:43-75 | in a consistent store, each standard of the equipment's type gets exactly its prescribed dates |
| Views.CreateMaintenancePlansValid | maintenance/views.py:66-72 | scheduling plans for stored equipment keeps the store invariant |
| Views.StoreEquipmentValid | maintenance/models.py:18-19 | a row with a fresh id, an unused inventory number and an existing type keeps the store invariant |
| Views.AddEquipment | maintenance/views.py:27-36 | the form is accepted exactly when it has no errors, a rejection carries the errors, and on success the equipment is stored and its plans are scheduled |
| Views.AddEquipmentValid | maintenance/views.py:27-36 | adding equipment keeps the store invariant |
| Views.AddPlan | maintenance/views.py:87-95 | the form is accepted exactly when it has no errors; the new plan carries the submitted fields, a fresh id and the actor as creator, and nothing else changes |
| Views.AddPlanValid | maintenance/views.py:87-95 | a plan added by an existing user keeps the store invariant |
| Views.FindPlan | maintenance/views.py:104 | the position found holds the first plan with that key, and there is none exactly when no plan has it |
| Views.EditPlan | maintenance/views.py:103-116 | a missing plan is "not found"; the edit is accepted exactly when the form has no errors, and a rejected edit carries exactly those errors back to the form; only status, actual date, notes and editor change, and a completed plan saved without an actual date gets today |
| Views.EditPlanKeepsSchedule | maintenance/views.py:108-114 | after an edit, a completed plan has an actual date, the equipment, type, planned date and creator are unchanged, and no other plan changes |
| Views.EditPlanValid | maintenance/views.py:103-116 | an edit by an existing user keeps the store invariant |
| Views.ReplacePlanValid | maintenance/views.py:114 | saving over a plan with the same key and resolving references keeps the store invariant |
| Views.DeletePlan | maintenance/views.py:128-134 | a missing plan is "not found"; otherwise exactly that plan is removed |
| Deletion.RemovePlan | maintenance/views.py:132 | exactly the plans with that key are removed; with unique keys that is one position, and nothing else changes |
| Deletion.RemovePlanValid | maintenance/views.py:132 | removing a plan keeps the store invariant |
| Deletion.DeleteEquipment | maintenance/models.py:64 | deleting equipment removes it and exactly the plans that refer to it |
| Deletion.DeleteEquipmentValid | maintenance/models.py:64 | the cascade leaves no dangling reference |
| Deletion.DeleteMaintenanceType | maintenance/models.py:44-65 | deleting a maintenance type removes it and exactly the standards and plans that refer to it |
| Deletion.DeleteMaintenanceTypeValid | maintenance/models.py:44-65 | the cascade leaves no dangling reference |
| Deletion.DeleteEquipmentType | maintenance/models.py:19-43 | deleting an equipment type removes it, its equipment, its standards and the plans of its equipment, and nothing else |
| Deletion.DeleteEquipmentTypeValid | maintenance/models.py:19-43 | the cascade leaves no dangling reference |
| Deletion.DeleteUser | maintenance/models.py:70-73 | deleting a user keeps every plan and clears exactly the creator and editor columns that named the user |
| Deletion.DeleteUserValid | maintenance/models.py:70-73 | clearing user references keeps the store invariant |
| Ordering.InsertByDate | maintenance/models.py:83 | inserting into a date-sorted list keeps it sorted and adds exactly that plan |
| Ordering.SortByDate | maintenance/models.py:83 | the result is sorted by planned date and is a permutation of the input |
| Ordering.PlanList | maintenance/views.py:81 | the plan list holds every plan exactly as often as the table does, in ascending planned-date order |
| Forms.TextErrors | maintenance/models.py:17 | a required text field is accepted exactly when it is non-empty and within its maximum length |
| Forms.ChoiceErrors | maintenance/forms.py:9 | a foreign-key choice is accepted exactly when it is given and names an existing row |
| Forms.RequiredErrors | maintenance/forms.py:23 | a required field is accepted exactly when it is given |
| Forms.EquipmentFormErrors | maintenance/forms.py:6-9 | the equipment form is accepted exactly when: the name has 1..200 characters; the inventory number has 1..50 characters and is unused; the type exists; the installation date is given |
| Forms.PlanFormErrors | maintenance/forms.py:20-23 | the plan form is accepted exactly when equipment and maintenance type exist and the planned date and status are given; notes and the actual date may be empty |
| Forms.PlanEditFormErrors | maintenance/forms.py:35-48 | the edit form is accepted exactly when a status is given and, when the stored plan is completed without an actual date, an actual date is given |
| Calendar.ShownKind | maintenance/views.py:173-178 | a planned event shows inspection for "ТО", repair for "ТР", and the shared colour for every other code |
| Calendar.EventColor | maintenance/views.py:166-178 | the legend reads back the status from the colour, and for a planned plan also the kind of maintenance |
| Calendar.StatusTakesPriority | maintenance/views.py:166-171 | a plan that is not planned gets the same colour whatever its type |
| Calendar.SameColor | maintenance/views.py:166-178 | two plans share a colour exactly when they share the status and, when planned, the shown kind |
| Calendar.Title | maintenance/views.py:182 | the title is the equipment name, " - ", then the maintenance type name |
| Calendar.FindEquipment | maintenance/views.py:161 | a plan's equipment resolves to a stored row with that key, and fails exactly when there is none |
| Calendar.PlanEvent | maintenance/views.py:180-185 | a plan has an event exactly when its references resolve; the event carries its key, title, planned date and colour |
| Calendar.Events | maintenance/views.py:164-194 | the events exist exactly when every plan's event does, one per plan in the same order |
| Calendar.CalendarFeed | maintenance/views.py:159-197 | the feed has one event per plan exactly when every reference resolves; events ascend by start date, each is the event of a stored plan, and every stored plan's event is in the feed |
| Calendar.EventsFollowPlans | maintenance/views.py:161-194 | the events of date-sorted plans ascend by start, and each is the event of one of the plans |
| Calendar.EventsCoverPlans | maintenance/views.py:164-194 | the event of every plan in the list appears among the events |
| Calendar.CalendarFeedComplete | maintenance/views.py:159-201 | in a consistent store the feed never takes the error path and has one event per plan |
| Seed.FrequencyOf | maintenance/management/commands/seed_data.py:81-85 | only the three kinds have a frequency, and every frequency is positive |
| Seed.StandardFrequency | maintenance/management/commands/seed_data.py:81-90 | "ТО" is monthly, "ТР" every 6 months and "КР" every 36 months; every other code has no standard |
| Seed.StandardsOfType | maintenance/management/commands/seed_data.py:88-95 | the standards of a type have consecutive ids, that type and a positive frequency |
| Seed.StandardsOfTypeSound | maintenance/management/commands/seed_data.py:88-95 | every standard of a type comes from a maintenance type, with the table's frequency for its code |
| Seed.StandardsOfTypeComplete | maintenance/management/commands/seed_data.py:88-95 | every maintenance type in the table gets a standard for the type |
| Seed.SeedStandards | maintenance/management/commands/seed_data.py:80-99 | the seeded standards have consecutive ids and positive frequencies |
| Seed.SeedStandardsSound | maintenance/management/commands/seed_data.py:80-99 | every seeded standard is for a given equipment type, comes from a given maintenance type, and has the table's frequency |
| Seed.SeedStandardsComplete | maintenance/management/commands/seed_data.py:80-99 | every (equipment type, table maintenance type) pair gets a standard |
| Seed.SeedDates | maintenance/management/commands/seed_data.py:159-166 | a zero frequency fails; otherwise the dates are exactly those projected periods 1..24 // F that are not more than 30 days in the past, in strictly ascending order, so each date occurs once |
| Seed.RecentPeriodsIncreasing | maintenance/management/commands/seed_data.py:159-166 | the periods kept for seeding ascend strictly, for a positive frequency because each period lies a whole number of months after the previous one, for a negative one because none is projected |
| Seed.NotesTemplate | maintenance/management/commands/seed_data.py:199-218 | every known kind has a non-empty note for every status, and an unknown kind has none |
| Seed.GenerateNotes | maintenance/management/commands/seed_data.py:198-221 | the notes are non-empty exactly when the code and the status are known, and then they are the template of the pair |
| Seed.SeedPlan | maintenance/management/commands/seed_data.py:175-191 | a seeded plan carries the drawn status; it has an actual date exactly when completed, within 5 days before to 2 days after the planned date; its notes are the template |
| Seed.SeedPlanNotes | maintenance/management/commands/seed_data.py:190 | a seeded plan's notes are what the notes function gives for its type code and stored status code |
| Seed.SeedPlanSeeded | maintenance/management/commands/seed_data.py:163-191 | a plan built from a recent date is a seeded plan of its maintenance type |
| Seed.SeedBlock | maintenance/management/commands/seed_data.py:162-191 | one seeded plan per date, in order, with consecutive ids, of the equipment |
| Seed.PlansForStandard | maintenance/management/commands/seed_data.py:158-191 | a zero frequency fails, and a resolvable standard succeeds; the plans fall exactly on the seed dates, with consecutive ids, and are seeded plans of the standard's type |
| Seed.PlansForStandards | maintenance/management/commands/seed_data.py:156-191 | seeding every standard of a piece of equipment succeeds when each standard is seedable, and gives seeded plans of that equipment with consecutive ids, whose slots are exactly each standard's seed dates in turn |
| Seed.EquipmentSlotsCount | maintenance/management/commands/seed_data.py:158-166 | the number of slots of an equipment's standards is the sum of the numbers of their seed dates |
| Seed.EquipmentSlotsCover | maintenance/management/commands/seed_data.py:158-166 | every seed date of every standard with a non-zero frequency has its slot |
| Seed.SeedPlans | maintenance/management/commands/seed_data.py:149-191 | seeding every equipment succeeds when every stored standard is seedable, and gives seeded plans of the given equipment with consecutive ids, whose slots are exactly each equipment's standards' seed dates in turn |
| Seed.StoreSlotsCover | maintenance/management/commands/seed_data.py:155-166 | every seed date of every standard of every listed equipment's type has its slot |
| Seed.SeedStore | maintenance/management/commands/seed_data.py:149-196 | the seeded plans are appended to the store with fresh ids, each is a seeded plan of a stored maintenance type, and their slots are exactly the seed dates of every stored equipment's standards in turn |
| Seed.SeedStoreCovers | maintenance/management/commands/seed_data.py:155-191 | after seeding, every recent projected date of every standard of every stored equipment has a new plan on its slot |
| Seed.InstallationDate | maintenance/management/commands/seed_data.py:135-142 | a seeded installation date lies between 545 and 180 days before today |

## Left out

- HTTP handling, templates, redirects, flash messages, login and logout, and the profile,
  index and list pages are not modelled. The list page appears only as its ordering
  (`Ordering.PlanList`).
- The calendar feed's JSON encoding is not modelled. This covers the ISO date format, the
  `extendedProps` block with user names and the status label, the diagnostic prints, and
  the HTTP 500 response on an exception. The model's equivalent of the error path is a
  `None` feed when a reference does not resolve.
- The creation and modification timestamps of plans are not modelled; the source sets
  them automatically and nothing in the core reads them.
- The current date, the acting user and the random numbers are parameters:
  - `today`;
  - `actor`;
  - the `draws` oracle for the seeded statuses and actual-date offsets;
  - `back`, for the installation spread.
  The status weights 0.7/0.1/0.15/0.05 are therefore not modelled: any status may be drawn.
- Row ids come from one shared counter, `Db.nextId`, instead of one auto-increment
  sequence per table.
- Concurrency is not modelled. Two generator runs at once could both pass the
  per-date existence check, and the model runs everything sequentially.
- Database transactions and failures of the storage layer are not modelled.
- The demonstration command's data-clearing step and its fixed lists are not modelled:
  the equipment-type names, the equipment names and inventory numbers. `Seed.SeedStore`
  starts from a given store. `Seed.SeedStandards` takes the equipment types and
  maintenance types as parameters.
- Seed.SeedStandards: does not model the lookup-or-create of each standard. The model
  creates every standard fresh, which is what happens after the clearing step.
- `MaintenancePlanExtension` is not part of this model. Nothing in the core reads or
  writes it, so its cascade on equipment deletion is left out too.
- The following form details are not modelled: widgets, CSS classes, placeholders,
  whitespace stripping of text fields, and the login form.
- The admin site and URL routing are not modelled. The admin site is the only place
  besides the demonstration command where maintenance types are created or edited
  (`maintenance/admin.py:17-19`). So the maintenance type name and code lengths are not
  modelled either.
- The generator's `--years` command-line option and its default of 3 are not modelled.
  The number of years is a parameter of every generator member.
- The model-level default status `planned` (`maintenance/models.py:68`) is not modelled.
  The plan form requires a status, and generated and seeded plans set theirs explicitly.
- Dates are unbounded day numbers. Python dates stop at the years 1 and 9999, and
  adding the period offset to a date beyond them raises `OverflowError` (for instance
  with a very large `--years`). The command then stops with some plans already created.
  Neither the date range nor that error is modelled: the model always creates every plan.

=== FILE: calendar.dfy ===
/** The calendar feed: one event per plan, in the plans' default order, titled with the
    equipment and the maintenance type and coloured by status, or for a planned event by
    the kind of maintenance. */
module Calendar {
  import opened Wrappers
  import opened Seqs
  import opened Models
  import opened Ordering

  const CompletedColor := "#28a745"
  const InProgressColor := "#ffc107"
  const CancelledColor := "#dc3545"
  const RoutineColor := "#007bff"
  const RepairColor := "#fd7e14"
  const OtherColor := "#6f42c1"
  const EventTextColor := "white"

  /** The kind of maintenance a planned event's colour shows: routine inspection and
      current repair have colours of their own, and every other code shares one. */
  function ShownKind(code: string): (k: Kind)
    ensures k == Routine <==> code == RoutineCode
    ensures k == Repair <==> code == RepairCode
    ensures k == OtherKind <==> code != RoutineCode && code != RepairCode
  {
    match KindOf(code)
    case Routine => Routine
    case Repair => Repair
    case _ => OtherKind
  }

  /** What the calendar legend says a colour means: the status, and for a planned event
      also the kind of maintenance. */
  datatype Meaning = Meaning(status: Status, kind: Option<Kind>)

  /** Reads a colour back through the legend. */
  function Legend(color: string): Option<Meaning> {
    if color == CompletedColor then Some(Meaning(Completed, None))
    else if color == InProgressColor then Some(Meaning(InProgress, None))
    else if color == CancelledColor then Some(Meaning(Cancelled, None))
    else if color == RoutineColor then Some(Meaning(Planned, Some(Routine)))
    else if color == RepairColor then Some(Meaning(Planned, Some(Repair)))
    else if color == OtherColor then Some(Meaning(Planned, Some(OtherKind)))
    else None
  }

  /** The colour of a plan with status `status` and maintenance type code `code`. The
      legend recovers the status from it, and for a planned plan also the kind of
      maintenance; for any other status the code plays no part. */
  function EventColor(status: Status, code: string): (c: string)
    ensures Legend(c) == Some(Meaning(status, if status == Planned then Some(ShownKind(code)) else None))
  {
    match status
    case Completed => CompletedColor
    case InProgress => InProgressColor
    case Cancelled => CancelledColor
    case Planned =>
      if code == RoutineCode then RoutineColor
      else if code == RepairCode then RepairColor
      else OtherColor
  }

  /** Status takes priority over the maintenance type: a plan that is not planned gets the
      same colour whatever its type. */
  lemma StatusTakesPriority(status: Status, code1: string, code2: string)
    requires status != Planned
    ensures EventColor(status, code1) == EventColor(status, code2)
  {
    assert Legend(EventColor(status, code1)) == Legend(EventColor(status, code2));
  }

  /** Two plans share a colour exactly when they share the status and, when planned, the
      kind of maintenance. */
  lemma SameColor(s1: Status, code1: string, s2: Status, code2: string)
    ensures EventColor(s1, code1) == EventColor(s2, code2) <==>
      s1 == s2 && (s1 == Planned ==> ShownKind(code1) == ShownKind(code2))
  {
    if EventColor(s1, code1) == EventColor(s2, code2) {
      assert Legend(EventColor(s1, code1)) == Legend(EventColor(s2, code2));
    }
  }

  /** An event's title: the equipment's name, a dash, and the maintenance type's name. */
  function Title(equipmentName: string, typeName: string): (t: string)
    ensures |t| == |equipmentName| + 3 + |typeName|
    ensures t[..|equipmentName|] == equipmentName
    ensures t[|equipmentName|..|equipmentName| + 3] == " - "
    ensures t[|equipmentName| + 3..] == typeName
  {
    equipmentName + " - " + typeName
  }

  /** One calendar event. */
  datatype Event = Event(id: Id, title: string, start: Date, color: string, textColor: string)

  function EquipmentIdIs(id: Id): Equipment -> bool {
    (e: Equipment) => e.id == id
  }

  /** The equipment row with primary key `id`. */
  function FindEquipment(db: Db, id: Id): (r: Option<Equipment>)
    ensures r.Some? ==> r.value in db.equipment && r.value.id == id
    ensures r.None? <==> !HasEquipment(db, id)
  {
    match FirstIndex(db.equipment, EquipmentIdIs(id))
    case None => None
    case Some(k) => Some(db.equipment[k])
  }

  /** The event of plan `p`, or nothing when one of its references does not resolve. */
  function PlanEvent(db: Db, p: MaintenancePlan): (r: Option<Event>)
    ensures r.Some? <==> HasEquipment(db, p.equipment) && HasMaintenanceType(db, p.maintenanceType)
    ensures r.Some? ==> exists e, m | e in db.equipment && m in db.maintenanceTypes ::
      && e.id == p.equipment && m.id == p.maintenanceType
      && r.value == Event(p.id, Title(e.name, m.name), p.plannedDate, EventColor(p.status, m.code), EventTextColor)
  {
    match (FindEquipment(db, p.equipment), FindMaintenanceType(db, p.maintenanceType))
    case (Some(e), Some(m)) =>
      Some(Event(p.id, Title(e.name, m.name), p.plannedDate, EventColor(p.status, m.code), EventTextColor))
    case _ => None
  }

  /** The events of `plans`, in the same order, or nothing when some plan's reference
      does not resolve. */
  function Events(db: Db, plans: seq<MaintenancePlan>): (r: Option<seq<Event>>)
    ensures r.Some? <==> forall p | p in plans :: PlanEvent(db, p).Some?
    ensures r.Some? ==> |r.value| == |plans|
    ensures r.Some? ==> forall i | 0 <= i < |plans| :: Some(r.value[i]) == PlanEvent(db, plans[i])
  {
    MapAll(plans, (p: MaintenancePlan) => PlanEvent(db, p))
  }

  /** The calendar feed: the events of all plans in ascending planned-date order. */
  function CalendarFeed(db: Db): (r: Option<seq<Event>>)
    ensures r.Some? <==> forall p | p in db.plans :: PlanEvent(db, p).Some?
    ensures r.Some? ==> |r.value| == |db.plans|
    ensures r.Some? ==> forall i, j | 0 <= i < j < |r.value| :: r.value[i].start <= r.value[j].start
    ensures r.Some? ==> forall i | 0 <= i < |r.value| ::
      exists p | p in db.plans :: Some(r.value[i]) == PlanEvent(db, p)
    ensures r.Some? ==> forall p | p in db.plans ::
      exists i | 0 <= i < |r.value| :: Some(r.value[i]) == PlanEvent(db, p)
  {
    var plans := PlanList(db);
    SamePlans(plans, db.plans);
    var r := Events(db, plans);
    if r.None? then r
    else
      EventsFollowPlans(db, plans, r.value);
      EventsCoverPlans(db, plans, r.value);
      r
  }

  /** A permutation has the same length and the same elements. */
  lemma SamePlans(a: seq<MaintenancePlan>, b: seq<MaintenancePlan>)
    requires multiset(a) == multiset(b)
    ensures |a| == |b|
    ensures forall p :: p in a <==> p in b
  {
    assert |a| == |multiset(a)| == |multiset(b)| == |b|;
    assert forall p :: p in a <==> p in multiset(a);
  }

  /** The events of sorted plans start in ascending order, and each is the event of one of
      the plans. */
  lemma EventsFollowPlans(db: Db, plans: seq<MaintenancePlan>, evs: seq<Event>)
    requires SortedByDate(plans) && Events(db, plans) == Some(evs)
    ensures forall i, j | 0 <= i < j < |evs| :: evs[i].start <= evs[j].start
    ensures forall i | 0 <= i < |evs| :: exists p | p in plans :: Some(evs[i]) == PlanEvent(db, p)
  {
    assert forall i | 0 <= i < |evs| :: evs[i].start == plans[i].plannedDate;
    assert forall i | 0 <= i < |evs| :: plans[i] in plans;
  }

  /** Every plan's event is among the events. */
  lemma EventsCoverPlans(db: Db, plans: seq<MaintenancePlan>, evs: seq<Event>)
    requires Events(db, plans) == Some(evs)
    ensures forall p | p in plans :: exists i | 0 <= i < |evs| :: Some(evs[i]) == PlanEvent(db, p)
  {
    forall p | p in plans ensures exists i | 0 <= i < |evs| :: Some(evs[i]) == PlanEvent(db, p) {
      var k :| 0 <= k < |plans| && plans[k] == p;
      assert Some(evs[k]) == PlanEvent(db, p);
    }
  }

  /** In a consistent store every plan's references resolve, so the feed always has an
      event for every plan. */
  lemma CalendarFeedComplete(db: Db)
    requires Valid(db)
    ensures CalendarFeed(db).Some?
    ensures |CalendarFeed(db).value| == |db.plans|
  {
    assert forall p | p in db.plans :: PlanRefsOk(db, p);
  }
}

=== FILE: deletion.dfy ===
/** What deleting a row does to the rows that refer to it: equipment, equipment types and
    maintenance types cascade to the rows that reference them, while deleting a user
    only clears the creator and editor columns of plans. */
module Deletion {
  import opened Wrappers
  import opened Seqs
  import opened Models

  function PlanIdTest(id: Id): MaintenancePlan -> bool {
    (p: MaintenancePlan) => p.id != id
  }

  /** Removes the plan with primary key `id`; nothing else changes. */
  function RemovePlan(db: Db, id: Id): (r: Db)
    ensures forall p | p in r.plans :: p in db.plans && p.id != id
    ensures forall p | p in db.plans && p.id != id :: p in r.plans
    ensures r == db.(plans := r.plans)
    ensures forall k | 0 <= k < |db.plans| && db.plans[k].id == id && UniqueBy(db.plans, PlanKey) ::
      r.plans == db.plans[..k] + db.plans[k + 1..]
  {
    var keep := PlanIdTest(id);
    assert forall k | 0 <= k < |db.plans| && db.plans[k].id == id && UniqueBy(db.plans, PlanKey) ::
      Filter(db.plans, keep) == db.plans[..k] + db.plans[k + 1..] by {
      forall k | 0 <= k < |db.plans| && db.plans[k].id == id && UniqueBy(db.plans, PlanKey)
        ensures Filter(db.plans, keep) == db.plans[..k] + db.plans[k + 1..]
      {
        FilterOutKey(db.plans, PlanKey, keep, k);
      }
    }
    db.(plans := Filter(db.plans, keep))
  }

  function EquipmentIdTest(id: Id): Equipment -> bool {
    (e: Equipment) => e.id != id
  }

  function PlanEquipmentTest(id: Id): MaintenancePlan -> bool {
    (p: MaintenancePlan) => p.equipment != id
  }

  /** Deletes the equipment `id` together with every plan that refers to it. */
  function DeleteEquipment(db: Db, id: Id): (r: Db)
    ensures forall e | e in r.equipment :: e in db.equipment && e.id != id
    ensures forall e | e in db.equipment && e.id != id :: e in r.equipment
    ensures forall p | p in r.plans :: p in db.plans && p.equipment != id
    ensures forall p | p in db.plans && p.equipment != id :: p in r.plans
    ensures r == db.(equipment := r.equipment, plans := r.plans)
  {
    db.(equipment := Filter(db.equipment, EquipmentIdTest(id)),
        plans := Filter(db.plans, PlanEquipmentTest(id)))
  }

  function MaintenanceTypeIdTest(id: Id): MaintenanceType -> bool {
    (m: MaintenanceType) => m.id != id
  }

  function StandardTypeTest(id: Id): MaintenanceStandard -> bool {
    (s: MaintenanceStandard) => s.maintenanceType != id
  }

  function PlanTypeTest(id: Id): MaintenancePlan -> bool {
    (p: MaintenancePlan) => p.maintenanceType != id
  }

  /** Deletes the maintenance type `id` together with every standard and every plan
      that refers to it. */
  function DeleteMaintenanceType(db: Db, id: Id): (r: Db)
    ensures forall m | m in r.maintenanceTypes :: m in db.maintenanceTypes && m.id != id
    ensures forall m | m in db.maintenanceTypes && m.id != id :: m in r.maintenanceTypes
    ensures forall s | s in r.standards :: s in db.standards && s.maintenanceType != id
    ensures forall s | s in db.standards && s.maintenanceType != id :: s in r.standards
    ensures forall p | p in r.plans :: p in db.plans && p.maintenanceType != id
    ensures forall p | p in db.plans && p.maintenanceType != id :: p in r.plans
    ensures r == db.(maintenanceTypes := r.maintenanceTypes, standards := r.standards, plans := r.plans)
  {
    db.(maintenanceTypes := Filter(db.maintenanceTypes, MaintenanceTypeIdTest(id)),
        standards := Filter(db.standards, StandardTypeTest(id)),
        plans := Filter(db.plans, PlanTypeTest(id)))
  }

  /** The ids of the equipment of one type. */
  function EquipmentOfType(db: Db, id: Id): (ids: set<Id>)
    ensures forall e | e in db.equipment && e.equipmentType == id :: e.id in ids
  {
    set e | e in db.equipment && e.equipmentType == id :: e.id
  }

  function EquipmentTypeIdTest(id: Id): EquipmentType -> bool {
    (t: EquipmentType) => t.id != id
  }

  function EquipmentOfTypeTest(id: Id): Equipment -> bool {
    (e: Equipment) => e.equipmentType != id
  }

  function StandardEquipmentTypeTest(id: Id): MaintenanceStandard -> bool {
    (s: MaintenanceStandard) => s.equipmentType != id
  }

  function PlanNotInTest(ids: set<Id>): MaintenancePlan -> bool {
    (p: MaintenancePlan) => p.equipment !in ids
  }

  /** Deletes the equipment type `id`, its equipment and standards, and the plans of
      that equipment. */
  function DeleteEquipmentType(db: Db, id: Id): (r: Db)
    ensures forall t | t in r.equipmentTypes :: t in db.equipmentTypes && t.id != id
    ensures forall t | t in db.equipmentTypes && t.id != id :: t in r.equipmentTypes
    ensures forall e | e in r.equipment :: e in db.equipment && e.equipmentType != id
    ensures forall e | e in db.equipment && e.equipmentType != id :: e in r.equipment
    ensures forall s | s in r.standards :: s in db.standards && s.equipmentType != id
    ensures forall s | s in db.standards && s.equipmentType != id :: s in r.standards
    ensures forall p, e | p in db.plans && e in db.equipment && e.id == p.equipment && e.equipmentType == id ::
      p !in r.plans
    ensures forall p | p in r.plans :: p in db.plans
    ensures forall p | p in db.plans && (forall e | e in db.equipment && e.id == p.equipment :: e.equipmentType != id) ::
      p in r.plans
    ensures r == db.(equipmentTypes := r.equipmentTypes, equipment := r.equipment,
                     standards := r.standards, plans := r.plans)
  {
    var doomed := EquipmentOfType(db, id);
    db.(equipmentTypes := Filter(db.equipmentTypes, EquipmentTypeIdTest(id)),
        equipment := Filter(db.equipment, EquipmentOfTypeTest(id)),
        standards := Filter(db.standards, StandardEquipmentTypeTest(id)),
        plans := Filter(db.plans, PlanNotInTest(doomed)))
  }

  /** The plan with every reference to user `u` cleared. */
  function ClearUser(p: MaintenancePlan, u: UserId): MaintenancePlan {
    p.(createdBy := if p.createdBy == Some(u) then None else p.createdBy,
       updatedBy := if p.updatedBy == Some(u) then None else p.updatedBy)
  }

  /** Deletes the user `u`: the plans stay, and their creator and editor columns that
      named `u` become empty. */
  function DeleteUser(db: Db, u: UserId): (r: Db)
    ensures u !in r.users && r.users == db.users - {u}
    ensures |r.plans| == |db.plans|
    ensures forall i | 0 <= i < |r.plans| ::
      && r.plans[i].createdBy != Some(u) && r.plans[i].updatedBy != Some(u)
      && r.plans[i] == db.plans[i].(createdBy := r.plans[i].createdBy, updatedBy := r.plans[i].updatedBy)
      && (db.plans[i].createdBy != Some(u) ==> r.plans[i].createdBy == db.plans[i].createdBy)
      && (db.plans[i].updatedBy != Some(u) ==> r.plans[i].updatedBy == db.plans[i].updatedBy)
    ensures r == db.(users := r.users, plans := r.plans)
  {
    db.(users := db.users - {u},
        plans := seq(|db.plans|, i requires 0 <= i < |db.plans| => ClearUser(db.plans[i], u)))
  }

  // Each deletion keeps the database invariant: no foreign key is left dangling and
  // no unique column gains a duplicate.

  lemma DeleteEquipmentValid(db: Db, id: Id)
    requires Valid(db)
    ensures Valid(DeleteEquipment(db, id))
  {
    var r := DeleteEquipment(db, id);
    FilterUniqueBy(db.equipment, EquipmentIdTest(id), EquipmentKey);
    FilterUniqueBy(db.equipment, EquipmentIdTest(id), InventoryKey);
    FilterUniqueBy(db.plans, PlanEquipmentTest(id), PlanKey);
    forall p | p in r.plans ensures PlanRefsOk(r, p) {
      assert PlanRefsOk(db, p);
      var e :| e in db.equipment && e.id == p.equipment;
      assert e in r.equipment;
    }
  }

  lemma DeleteMaintenanceTypeValid(db: Db, id: Id)
    requires Valid(db)
    ensures Valid(DeleteMaintenanceType(db, id))
  {
    var r := DeleteMaintenanceType(db, id);
    FilterUniqueBy(db.maintenanceTypes, MaintenanceTypeIdTest(id), MaintenanceTypeKey);
    FilterUniqueBy(db.maintenanceTypes, MaintenanceTypeIdTest(id), CodeKey);
    FilterUniqueBy(db.standards, StandardTypeTest(id), StandardKey);
    FilterUniqueBy(db.standards, StandardTypeTest(id), StandardPairKey);
    FilterUniqueBy(db.plans, PlanTypeTest(id), PlanKey);
    forall s | s in r.standards ensures HasMaintenanceType(r, s.maintenanceType) {
      var m :| m in db.maintenanceTypes && m.id == s.maintenanceType;
      assert m in r.maintenanceTypes;
    }
    forall p | p in r.plans ensures PlanRefsOk(r, p) {
      assert PlanRefsOk(db, p);
      var m :| m in db.maintenanceTypes && m.id == p.maintenanceType;
      assert m in r.maintenanceTypes;
    }
  }

  lemma DeleteEquipmentTypeValid(db: Db, id: Id)
    requires Valid(db)
    ensures Valid(DeleteEquipmentType(db, id))
  {
    var r := DeleteEquipmentType(db, id);
    var doomed := EquipmentOfType(db, id);
    FilterUniqueBy(db.equipmentTypes, EquipmentTypeIdTest(id), EquipmentTypeKey);
    FilterUniqueBy(db.equipment, EquipmentOfTypeTest(id), EquipmentKey);
    FilterUniqueBy(db.equipment, EquipmentOfTypeTest(id), InventoryKey);
    FilterUniqueBy(db.standards, StandardEquipmentTypeTest(id), StandardKey);
    FilterUniqueBy(db.standards, StandardEquipmentTypeTest(id), StandardPairKey);
    FilterUniqueBy(db.plans, PlanNotInTest(doomed), PlanKey);
    forall e | e in r.equipment ensures HasEquipmentType(r, e.equipmentType) {
      var t :| t in db.equipmentTypes && t.id == e.equipmentType;
      assert t in r.equipmentTypes;
    }
    forall s | s in r.standards ensures HasEquipmentType(r, s.equipmentType) {
      var t :| t in db.equipmentTypes && t.id == s.equipmentType;
      assert t in r.equipmentTypes;
    }
    forall p | p in r.plans ensures PlanRefsOk(r, p) {
      assert PlanRefsOk(db, p);
      var e :| e in db.equipment && e.id == p.equipment;
      assert p.equipment !in doomed;
      assert e in r.equipment;
    }
  }

  lemma DeleteUserValid(db: Db, u: UserId)
    requires Valid(db)
    ensures Valid(DeleteUser(db, u))
  {
    var r := DeleteUser(db, u);
    forall i, j | 0 <= i < j < |r.plans| ensures r.plans[i].id != r.plans[j].id {
      assert r.plans[i].id == db.plans[i].id && r.plans[j].id == db.plans[j].id;
    }
    forall p | p in r.plans ensures PlanRefsOk(r, p) && p.id < r.nextId {
      var i :| 0 <= i < |r.plans| && r.plans[i] == p;
      assert db.plans[i] in db.plans;
      assert PlanRefsOk(db, db.plans[i]);
    }
  }

  lemma RemovePlanValid(db: Db, id: Id)
    requires Valid(db)
    ensures Valid(RemovePlan(db, id))
  {
    FilterUniqueBy(db.plans, PlanIdTest(id), PlanKey);
  }
}

=== FILE: forms.dfy ===
/** The input forms: which fields each one supplies and when it rejects its input.
    A field a POST request may leave out is an `Option`; an empty text is a missing one. */
module Forms {
  import opened Wrappers
  import opened Models

  /** A field-level validation message, naming the field. */
  datatype FormError =
    | Required(field: string)
    | TooLong(field: string)
    | InvalidChoice(field: string)
    | NotUnique(field: string)

  const NameMaxLength := 200
  const InventoryNumberMaxLength := 50

  /** Adding equipment supplies its name, inventory number, type and installation date. */
  datatype EquipmentForm = EquipmentForm(
    name: string,
    inventoryNumber: string,
    equipmentType: Option<Id>,
    installationDate: Option<Date>)

  /** Creating a plan by hand supplies equipment, maintenance type, planned date, status,
      actual date and notes. */
  datatype PlanForm = PlanForm(
    equipment: Option<Id>,
    maintenanceType: Option<Id>,
    plannedDate: Option<Date>,
    status: Option<Status>,
    actualDate: Option<Date>,
    notes: string)

  /** Editing a plan supplies only its status, actual date and notes. */
  datatype PlanEditForm = PlanEditForm(
    status: Option<Status>,
    actualDate: Option<Date>,
    notes: string)

  /** A required text field of bounded length. */
  function TextErrors(field: string, value: string, maxLength: nat): (es: seq<FormError>)
    ensures es == [] <==> 0 < |value| <= maxLength
  {
    if |value| == 0 then [Required(field)]
    else if |value| > maxLength then [TooLong(field)]
    else []
  }

  /** A required choice of an existing row. */
  function ChoiceErrors(field: string, value: Option<Id>, known: Id -> bool): (es: seq<FormError>)
    ensures es == [] <==> value.Some? && known(value.value)
  {
    if value.None? then [Required(field)]
    else if !known(value.value) then [InvalidChoice(field)]
    else []
  }

  function RequiredErrors<T>(field: string, value: Option<T>): (es: seq<FormError>)
    ensures es == [] <==> value.Some?
  {
    if value.None? then [Required(field)] else []
  }

  predicate InventoryNumberTaken(db: Db, n: string) {
    exists e :: e in db.equipment && e.inventoryNumber == n
  }

  /** The messages the equipment form shows; uniqueness of the inventory number is only
      checked once the field itself is well-formed. */
  function EquipmentFormErrors(db: Db, f: EquipmentForm): (es: seq<FormError>)
    ensures es == [] <==>
      && 0 < |f.name| <= NameMaxLength
      && 0 < |f.inventoryNumber| <= InventoryNumberMaxLength
      && !InventoryNumberTaken(db, f.inventoryNumber)
      && f.equipmentType.Some? && HasEquipmentType(db, f.equipmentType.value)
      && f.installationDate.Some?
  {
    var numberErrors := TextErrors("inventory_number", f.inventoryNumber, InventoryNumberMaxLength);
    TextErrors("name", f.name, NameMaxLength)
    + (if numberErrors == [] && InventoryNumberTaken(db, f.inventoryNumber)
       then [NotUnique("inventory_number")] else numberErrors)
    + ChoiceErrors("equipment_type", f.equipmentType, (id: Id) => HasEquipmentType(db, id))
    + RequiredErrors("installation_date", f.installationDate)
  }

  /** The messages the manual plan form shows. Notes may be blank and the actual date
      may be left out. */
  function PlanFormErrors(db: Db, f: PlanForm): (es: seq<FormError>)
    ensures es == [] <==>
      && f.equipment.Some? && HasEquipment(db, f.equipment.value)
      && f.maintenanceType.Some? && HasMaintenanceType(db, f.maintenanceType.value)
      && f.plannedDate.Some?
      && f.status.Some?
  {
    ChoiceErrors("equipment", f.equipment, (id: Id) => HasEquipment(db, id))
    + ChoiceErrors("maintenance_type", f.maintenanceType, (id: Id) => HasMaintenanceType(db, id))
    + RequiredErrors("planned_date", f.plannedDate)
    + RequiredErrors("status", f.status)
  }

  /** The actual date becomes a required field when the stored plan is already completed
      but has no actual date. The rule looks at the plan as stored, before the submitted
      values are applied. */
  predicate ActualDateRequired(stored: MaintenancePlan) {
    stored.status == Completed && stored.actualDate.None?
  }

  /** The messages the edit form shows for the stored plan `stored`. */
  function PlanEditFormErrors(stored: MaintenancePlan, f: PlanEditForm): (es: seq<FormError>)
    ensures es == [] <==> f.status.Some? && (ActualDateRequired(stored) ==> f.actualDate.Some?)
  {
    RequiredErrors("status", f.status)
    + (if ActualDateRequired(stored) then RequiredErrors("actual_date", f.actualDate) else [])
  }
}

=== FILE: generator.dfy ===
/** The plan generation command: for every equipment and every standard of its type,
    top up the plans of the (equipment, maintenance type) pair to cover a horizon of
    `years` years, never inserting a second plan on a date the pair already has. */
module Generator {
  import opened Wrappers
  import opened Seqs
  import opened Models
  import opened Schedule

  const MonthsPerYear := 12

  /** The horizon in months. */
  function Horizon(years: int): int {
    years * MonthsPerYear
  }

  /** How many plans a standard of frequency `frequency` asks for over the horizon: the
      number of whole periods that fit in it. */
  function RequestedCount(years: int, frequency: int): (n: int)
    requires frequency > 0
    ensures frequency * n <= Horizon(years) < frequency * (n + 1)
  {
    FloorDiv(Horizon(years), frequency)
  }

  /** The latest planned date among `ps`. */
  function LatestDate(ps: seq<MaintenancePlan>): (r: Option<Date>)
    ensures r.None? <==> ps == []
    ensures r.Some? ==> exists p | p in ps :: p.plannedDate == r.value
    ensures r.Some? ==> forall p | p in ps :: p.plannedDate <= r.value
    decreases |ps|
  {
    if ps == [] then None
    else
      var d := ps[0].plannedDate;
      assert ps[0] in ps;
      assert forall p | p in ps[1..] :: p in ps;
      match LatestDate(ps[1..])
      case None => Some(d)
      case Some(later) => Some(if d > later then d else later)
  }

  /** The date the new plans of a pair are counted from: the latest planned date of the
      pair, or the installation date when the pair has no plan. Every plan of the pair is
      dated no later than the anchor. */
  function Anchor(db: Db, e: Equipment, maintenanceType: Id): (a: Date)
    ensures forall p | p in db.plans && p.equipment == e.id && p.maintenanceType == maintenanceType ::
      p.plannedDate <= a
    ensures PlansOfPair(db.plans, e.id, maintenanceType) == [] ==> a == e.installationDate
  {
    match LatestDate(PlansOfPair(db.plans, e.id, maintenanceType))
    case None => e.installationDate
    case Some(d) => d
  }

  /** A pair with plans is anchored at the planned date of one of them, which by
      `Anchor`'s contract is the latest. */
  lemma AnchorIsLatest(db: Db, e: Equipment, maintenanceType: Id)
    requires PlansOfPair(db.plans, e.id, maintenanceType) != []
    ensures exists p | p in db.plans && p.equipment == e.id && p.maintenanceType == maintenanceType ::
      p.plannedDate == Anchor(db, e, maintenanceType)
  {
    var ps := PlansOfPair(db.plans, e.id, maintenanceType);
    assert LatestDate(ps).Some?;
    var p :| p in ps && p.plannedDate == LatestDate(ps).value;
    assert p in db.plans && PairTest(e.id, maintenanceType)(p);
  }

  /** Some plan of the pair is dated `date`. */
  predicate SlotTaken(db: Db, equipment: Id, maintenanceType: Id, date: Date) {
    exists p | p in db.plans :: SlotOf(p) == Slot(equipment, maintenanceType, date)
  }

  /** `after` extends `before` with `created` generated plans of one pair, each dated on
      one of `dates`. */
  predicate AppendedFor(before: Db, after: Db, created: nat, equipment: Id, maintenanceType: Id, dates: seq<Date>) {
    && Appended(before, after, created)
    && forall k | |before.plans| <= k < |after.plans| ::
         && after.plans[k] == NewPlan(after.plans[k].id, equipment, maintenanceType, after.plans[k].plannedDate)
         && after.plans[k].plannedDate in dates
  }

  /** No plan appended after `before` shares its slot with any plan before it. */
  predicate FreshSlots(before: Db, after: Db) {
    forall j, k | 0 <= j < k < |after.plans| && |before.plans| <= k ::
      SlotOf(after.plans[j]) != SlotOf(after.plans[k])
  }

  /** Inserts a plan of the pair on `date` unless the pair already has one that day. */
  function InsertSlot(db: Db, equipment: Id, maintenanceType: Id, date: Date): (r: Run)
    ensures r.created == if SlotTaken(db, equipment, maintenanceType, date) then 0 else 1
    ensures AppendedFor(db, r.db, r.created, equipment, maintenanceType, [date])
    ensures FreshSlots(db, r.db)
    ensures SlotTaken(r.db, equipment, maintenanceType, date)
  {
    if SlotTaken(db, equipment, maintenanceType, date) then Run(db, 0)
    else
      var p := NewPlan(db.nextId, equipment, maintenanceType, date);
      var after := db.(plans := db.plans + [p], nextId := db.nextId + 1);
      assert after.plans[..|db.plans|] == db.plans;
      assert p in after.plans;
      assert forall j | 0 <= j < |db.plans| :: after.plans[j] in db.plans;
      Run(after, 1)
  }

  /** Inserts, in order, a plan of the pair on each of `dates` the pair does not have yet.
      Every date ends up taken, and no new plan repeats a slot. */
  function InsertMissing(db: Db, equipment: Id, maintenanceType: Id, dates: seq<Date>): (r: Run)
    ensures AppendedFor(db, r.db, r.created, equipment, maintenanceType, dates)
    ensures r.created <= |dates|
    ensures FreshSlots(db, r.db)
    ensures forall d | d in dates :: SlotTaken(r.db, equipment, maintenanceType, d)
    decreases |dates|
  {
    if dates == [] then Run(db, 0)
    else
      var first := InsertSlot(db, equipment, maintenanceType, dates[0]);
      var rest := InsertMissing(first.db, equipment, maintenanceType, dates[1..]);
      AppendedForTrans(db, first.db, rest.db, first.created, rest.created, equipment, maintenanceType,
                       [dates[0]], dates[1..], dates);
      FreshSlotsTrans(db, first.db, rest.db);
      SlotTakenKept(first.db, rest.db, rest.created, equipment, maintenanceType, dates[0]);
      assert forall d | d in dates :: d == dates[0] || d in dates[1..];
      Run(rest.db, first.created + rest.created)
  }

  lemma AppendedForTrans(a: Db, b: Db, c: Db, m: nat, n: nat, equipment: Id, maintenanceType: Id,
                         ds1: seq<Date>, ds2: seq<Date>, ds: seq<Date>)
    requires AppendedFor(a, b, m, equipment, maintenanceType, ds1)
    requires AppendedFor(b, c, n, equipment, maintenanceType, ds2)
    requires forall d | d in ds1 :: d in ds
    requires forall d | d in ds2 :: d in ds
    ensures AppendedFor(a, c, m + n, equipment, maintenanceType, ds)
  {
    AppendedTrans(a, b, c, m, n);
    forall k | |a.plans| <= k < |b.plans| ensures c.plans[k] == b.plans[k] {
      assert c.plans[..|b.plans|][k] == c.plans[k];
    }
  }

  lemma FreshSlotsTrans(a: Db, b: Db, c: Db)
    requires |a.plans| <= |b.plans| <= |c.plans| && c.plans[..|b.plans|] == b.plans
    requires FreshSlots(a, b) && FreshSlots(b, c)
    ensures FreshSlots(a, c)
  {
    forall j, k | 0 <= j < k < |c.plans| && |a.plans| <= k ensures SlotOf(c.plans[j]) != SlotOf(c.plans[k]) {
      if k < |b.plans| {
        assert c.plans[..|b.plans|][j] == c.plans[j] && c.plans[..|b.plans|][k] == c.plans[k];
      }
    }
  }

  /** Appending plans never frees a slot. */
  lemma SlotTakenKept(before: Db, after: Db, created: nat, equipment: Id, maintenanceType: Id, date: Date)
    requires Appended(before, after, created)
    requires SlotTaken(before, equipment, maintenanceType, date)
    ensures SlotTaken(after, equipment, maintenanceType, date)
  {
    var p :| p in before.plans && SlotOf(p) == Slot(equipment, maintenanceType, date);
    var k :| 0 <= k < |before.plans| && before.plans[k] == p;
    assert after.plans[..|before.plans|][k] == p;
    assert after.plans[k] == p;
  }

  /** When the dates strictly increase and all lie after every plan of the pair, no date
      is taken yet, so every one of them gets a plan. */
  lemma {:induction false} InsertMissingAll(db: Db, equipment: Id, maintenanceType: Id, dates: seq<Date>)
    requires forall j, k | 0 <= j < k < |dates| :: dates[j] < dates[k]
    requires forall p, k | p in db.plans && p.equipment == equipment && p.maintenanceType == maintenanceType
      && 0 <= k < |dates| :: p.plannedDate < dates[k]
    ensures InsertMissing(db, equipment, maintenanceType, dates).created == |dates|
    decreases |dates|
  {
    if dates != [] {
      var first := InsertSlot(db, equipment, maintenanceType, dates[0]);
      assert !SlotTaken(db, equipment, maintenanceType, dates[0]);
      LaterDatesStillFree(db, first.db, equipment, maintenanceType, dates);
      InsertMissingAll(first.db, equipment, maintenanceType, dates[1..]);
    }
  }

  /** After the plan on the first date is inserted, the remaining dates still lie after
      every plan of the pair. */
  lemma LaterDatesStillFree(db: Db, mid: Db, equipment: Id, maintenanceType: Id, dates: seq<Date>)
    requires dates != []
    requires forall j, k | 0 <= j < k < |dates| :: dates[j] < dates[k]
    requires forall p, k | p in db.plans && p.equipment == equipment && p.maintenanceType == maintenanceType
      && 0 <= k < |dates| :: p.plannedDate < dates[k]
    requires mid == InsertSlot(db, equipment, maintenanceType, dates[0]).db
    ensures forall p, k | p in mid.plans && p.equipment == equipment && p.maintenanceType == maintenanceType
      && 0 <= k < |dates[1..]| :: p.plannedDate < dates[1..][k]
  {
    var r := InsertSlot(db, equipment, maintenanceType, dates[0]);
    forall p, k | p in mid.plans && p.equipment == equipment && p.maintenanceType == maintenanceType
      && 0 <= k < |dates[1..]|
      ensures p.plannedDate < dates[1..][k]
    {
      var i :| 0 <= i < |mid.plans| && mid.plans[i] == p;
      if i < |db.plans| {
        assert mid.plans[..|db.plans|][i] == p;
        assert p.plannedDate < dates[k + 1];
      } else {
        assert p.plannedDate in [dates[0]];
        assert dates[0] < dates[k + 1];
      }
    }
  }

  /** The plans of the pair after appending generated plans of that pair: the old ones
      followed by all new ones. */
  lemma PairCountGrows(before: Db, after: Db, created: nat, equipment: Id, maintenanceType: Id, dates: seq<Date>)
    requires AppendedFor(before, after, created, equipment, maintenanceType, dates)
    ensures |PlansOfPair(after.plans, equipment, maintenanceType)|
      == |PlansOfPair(before.plans, equipment, maintenanceType)| + created
  {
    var test := PairTest(equipment, maintenanceType);
    var added := after.plans[|before.plans|..];
    assert after.plans == before.plans + added;
    FilterAppend(before.plans, added, test);
    forall p | p in added ensures test(p) {
      var i :| 0 <= i < |added| && added[i] == p;
      assert after.plans[|before.plans| + i] == p;
    }
    FilterAll(added, test);
  }

  /** Appending plans never lowers the number of plans of a pair. */
  lemma PairCountKept(before: Db, after: Db, created: nat, equipment: Id, maintenanceType: Id)
    requires Appended(before, after, created)
    ensures |PlansOfPair(after.plans, equipment, maintenanceType)|
      >= |PlansOfPair(before.plans, equipment, maintenanceType)|
  {
    var added := after.plans[|before.plans|..];
    assert after.plans == before.plans + added;
    FilterAppend(before.plans, added, PairTest(equipment, maintenanceType));
  }

  /** The pair of equipment `e` and the standard's maintenance type has every plan the
      standard asks for (a standard with a non-positive frequency asks for none). */
  predicate Saturated(db: Db, e: Equipment, s: MaintenanceStandard, years: int) {
    s.frequencyMonths > 0 ==>
      |PlansOfPair(db.plans, e.id, s.maintenanceType)| >= RequestedCount(years, s.frequencyMonths)
  }

  lemma SaturatedKept(before: Db, after: Db, created: nat, e: Equipment, s: MaintenanceStandard, years: int)
    requires Appended(before, after, created) && Saturated(before, e, s, years)
    ensures Saturated(after, e, s, years)
  {
    PairCountKept(before, after, created, e.id, s.maintenanceType);
  }

  /** The candidate dates of a standard: periods 1 .. n after the anchor. */
  function Candidates(db: Db, e: Equipment, s: MaintenanceStandard, years: int): seq<Date>
    requires s.frequencyMonths > 0
  {
    Project(Anchor(db, e, s.maintenanceType), s.frequencyMonths, RequestedCount(years, s.frequencyMonths))
  }

  /** Generates the plans of one standard for equipment `e`. A standard with a
      non-positive frequency, or whose pair already has the requested number of plans,
      adds nothing; otherwise a plan is added on every candidate date, all of them after
      the anchor, and the pair ends up with every plan the standard asks for. */
  function GenerateForStandard(db: Db, e: Equipment, s: MaintenanceStandard, years: int): (r: Run)
    ensures Appended(db, r.db, r.created)
    ensures GeneratedFor(r.db.plans, |db.plans|, e.id)
    ensures forall k | |db.plans| <= k < |r.db.plans| ::
      r.db.plans[k].maintenanceType == s.maintenanceType
      && r.db.plans[k].plannedDate > Anchor(db, e, s.maintenanceType)
    ensures r.created == 0 <==> Saturated(db, e, s, years)
    ensures !Saturated(db, e, s, years) ==> r.created == RequestedCount(years, s.frequencyMonths)
    ensures Saturated(r.db, e, s, years)
    ensures FreshSlots(db, r.db)
    ensures !Saturated(db, e, s, years) ==>
      && (forall k | |db.plans| <= k < |r.db.plans| :: r.db.plans[k].plannedDate in Candidates(db, e, s, years))
      && (forall d | d in Candidates(db, e, s, years) :: SlotTaken(r.db, e.id, s.maintenanceType, d))
  {
    if s.frequencyMonths <= 0 then Run(db, 0)
    else
      var n := RequestedCount(years, s.frequencyMonths);
      if |PlansOfPair(db.plans, e.id, s.maintenanceType)| >= n then Run(db, 0)
      else
        TopUp(db, e, s, years);
        TopUpPlans(db, e, s, years);
        InsertMissing(db, e.id, s.maintenanceType, Candidates(db, e, s, years))
  }

  /** Inserting the candidates of a standard whose pair lacks plans adds a plan on each
      candidate date and leaves the pair saturated. */
  lemma TopUp(db: Db, e: Equipment, s: MaintenanceStandard, years: int)
    requires s.frequencyMonths > 0
    requires |PlansOfPair(db.plans, e.id, s.maintenanceType)| < RequestedCount(years, s.frequencyMonths)
    ensures var r := InsertMissing(db, e.id, s.maintenanceType, Candidates(db, e, s, years));
      && r.created == RequestedCount(years, s.frequencyMonths)
      && Saturated(r.db, e, s, years)
  {
    var dates := Candidates(db, e, s, years);
    var r := InsertMissing(db, e.id, s.maintenanceType, dates);
    CandidatesAfterAnchor(db, e, s, years);
    InsertMissingAll(db, e.id, s.maintenanceType, dates);
    PairCountGrows(db, r.db, r.created, e.id, s.maintenanceType, dates);
  }

  /** The i-th candidate (from 0) lies i + 1 periods of the standard's frequency after the
      anchor; there are as many as the requested count, or none when it is not positive. */
  lemma CandidateDates(db: Db, e: Equipment, s: MaintenanceStandard, years: int)
    requires s.frequencyMonths > 0
    ensures var c := Candidates(db, e, s, years);
      var n := RequestedCount(years, s.frequencyMonths);
      && |c| == (if n > 0 then n else 0)
      && forall i | 0 <= i < |c| ::
           c[i] == Anchor(db, e, s.maintenanceType) + s.frequencyMonths * DaysPerMonth * (i + 1)
  {
    var c := Candidates(db, e, s, years);
    forall i | 0 <= i < |c|
      ensures c[i] == Anchor(db, e, s.maintenanceType) + s.frequencyMonths * DaysPerMonth * (i + 1)
    {
      assert c[i] == PeriodDate(Anchor(db, e, s.maintenanceType), s.frequencyMonths, i + 1);
    }
  }

  /** The plans a standard's candidates add are generated plans of its pair, dated after
      the anchor. */
  lemma TopUpPlans(db: Db, e: Equipment, s: MaintenanceStandard, years: int)
    requires s.frequencyMonths > 0
    ensures var r := InsertMissing(db, e.id, s.maintenanceType, Candidates(db, e, s, years));
      && GeneratedFor(r.db.plans, |db.plans|, e.id)
      && (forall k | |db.plans| <= k < |r.db.plans| ::
            r.db.plans[k].maintenanceType == s.maintenanceType
            && r.db.plans[k].plannedDate > Anchor(db, e, s.maintenanceType))
  {
    var dates := Candidates(db, e, s, years);
    var r := InsertMissing(db, e.id, s.maintenanceType, dates);
    CandidatesAfterAnchor(db, e, s, years);
    AppendedForAfter(db, r.db, r.created, e.id, s.maintenanceType, dates, Anchor(db, e, s.maintenanceType));
  }

  /** Plans appended for a pair from dates after `bound` are generated plans of the pair
      dated after `bound`. */
  lemma AppendedForAfter(before: Db, after: Db, created: nat, equipment: Id, maintenanceType: Id,
                         dates: seq<Date>, bound: Date)
    requires AppendedFor(before, after, created, equipment, maintenanceType, dates)
    requires forall k | 0 <= k < |dates| :: dates[k] > bound
    ensures GeneratedFor(after.plans, |before.plans|, equipment)
    ensures forall k | |before.plans| <= k < |after.plans| ::
      after.plans[k].maintenanceType == maintenanceType && after.plans[k].plannedDate > bound
  {
    forall k | |before.plans| <= k < |after.plans|
      ensures after.plans[k].plannedDate > bound
    {
      var j :| 0 <= j < |dates| && dates[j] == after.plans[k].plannedDate;
    }
  }

  /** The candidates strictly increase and lie after every plan of the pair. */
  lemma CandidatesAfterAnchor(db: Db, e: Equipment, s: MaintenanceStandard, years: int)
    requires s.frequencyMonths > 0
    ensures var dates := Candidates(db, e, s, years);
      && (forall j, k | 0 <= j < k < |dates| :: dates[j] < dates[k])
      && (forall k | 0 <= k < |dates| :: dates[k] > Anchor(db, e, s.maintenanceType))
      && (forall p, k | p in db.plans && p.equipment == e.id && p.maintenanceType == s.maintenanceType
            && 0 <= k < |dates| :: p.plannedDate < dates[k])
  {
    ProjectIncreasing(Anchor(db, e, s.maintenanceType), s.frequencyMonths, RequestedCount(years, s.frequencyMonths));
  }

  /** Runs the standards `stds` one after the other for equipment `e`. */
  function GenerateForStandards(db: Db, e: Equipment, stds: seq<MaintenanceStandard>, years: int): (r: Run)
    ensures Appended(db, r.db, r.created)
    ensures GeneratedFor(r.db.plans, |db.plans|, e.id)
    ensures FreshSlots(db, r.db)
    ensures forall s | s in stds :: Saturated(r.db, e, s, years)
    ensures forall k | |db.plans| <= k < |r.db.plans| :: r.db.plans[k].maintenanceType in TypesOf(stds)
    decreases |stds|
  {
    if stds == [] then Run(db, 0)
    else
      var first := GenerateForStandard(db, e, stds[0], years);
      var rest := GenerateForStandards(first.db, e, stds[1..], years);
      StandardsStep(db, first, rest, e, stds, years);
      Run(rest.db, first.created + rest.created)
  }

  /** Combines the run of the first standard with the run of the others. */
  lemma StandardsStep(db: Db, first: Run, rest: Run, e: Equipment, stds: seq<MaintenanceStandard>, years: int)
    requires stds != []
    requires Appended(db, first.db, first.created)
    requires GeneratedFor(first.db.plans, |db.plans|, e.id)
    requires FreshSlots(db, first.db)
    requires Saturated(first.db, e, stds[0], years)
    requires forall k | |db.plans| <= k < |first.db.plans| :: first.db.plans[k].maintenanceType == stds[0].maintenanceType
    requires Appended(first.db, rest.db, rest.created)
    requires GeneratedFor(rest.db.plans, |first.db.plans|, e.id)
    requires FreshSlots(first.db, rest.db)
    requires forall s | s in stds[1..] :: Saturated(rest.db, e, s, years)
    requires forall k | |first.db.plans| <= k < |rest.db.plans| :: rest.db.plans[k].maintenanceType in TypesOf(stds[1..])
    ensures Appended(db, rest.db, first.created + rest.created)
    ensures GeneratedFor(rest.db.plans, |db.plans|, e.id)
    ensures FreshSlots(db, rest.db)
    ensures forall s | s in stds :: Saturated(rest.db, e, s, years)
    ensures forall k | |db.plans| <= k < |rest.db.plans| :: rest.db.plans[k].maintenanceType in TypesOf(stds)
  {
    AppendedTrans(db, first.db, rest.db, first.created, rest.created);
    FreshSlotsTrans(db, first.db, rest.db);
    SaturatedKept(first.db, rest.db, rest.created, e, stds[0], years);
    TypesStep(db, first.db, rest.db, first.created, rest.created, stds);
  }

  lemma TypesStep(db: Db, mid: Db, last: Db, m: nat, n: nat, stds: seq<MaintenanceStandard>)
    requires stds != []
    requires Appended(db, mid, m) && Appended(mid, last, n)
    requires forall k | |db.plans| <= k < |mid.plans| :: mid.plans[k].maintenanceType == stds[0].maintenanceType
    requires forall k | |mid.plans| <= k < |last.plans| :: last.plans[k].maintenanceType in TypesOf(stds[1..])
    ensures forall k | |db.plans| <= k < |last.plans| :: last.plans[k].maintenanceType in TypesOf(stds)
  {
    var ts := TypesOf(stds);
    assert ts == [stds[0].maintenanceType] + TypesOf(stds[1..]);
    forall k | |db.plans| <= k < |last.plans|
      ensures last.plans[k].maintenanceType in ts
    {
      if k < |mid.plans| {
        assert last.plans[..|mid.plans|][k] == last.plans[k];
      }
    }
  }

  /** The maintenance types of `stds`, in order. */
  function TypesOf(stds: seq<MaintenanceStandard>): (ts: seq<Id>)
    ensures |ts| == |stds|
    ensures forall i | 0 <= i < |stds| :: ts[i] == stds[i].maintenanceType
  {
    seq(|stds|, i requires 0 <= i < |stds| => stds[i].maintenanceType)
  }

  /** What standard `s` contributes to the new plans `added` of a run from `db`: nothing
      when its pair is saturated, otherwise the requested count of plans of the pair, all
      on candidate dates. */
  predicate StandardOutcome(db: Db, e: Equipment, s: MaintenanceStandard, years: int, added: seq<MaintenancePlan>) {
    var mine := PlansOfPair(added, e.id, s.maintenanceType);
    if Saturated(db, e, s, years) then mine == []
    else
      && |mine| == RequestedCount(years, s.frequencyMonths)
      && forall p | p in mine :: p.plannedDate in Candidates(db, e, s, years)
  }

  /** Plans of other maintenance types do not change the plans of a pair. */
  lemma OtherTypesIgnored(a: seq<MaintenancePlan>, b: seq<MaintenancePlan>, equipment: Id, maintenanceType: Id)
    requires forall x | x in b :: x.maintenanceType != maintenanceType
    ensures PlansOfPair(a + b, equipment, maintenanceType) == PlansOfPair(a, equipment, maintenanceType)
    ensures PlansOfPair(b + a, equipment, maintenanceType) == PlansOfPair(a, equipment, maintenanceType)
  {
    var test := PairTest(equipment, maintenanceType);
    FilterAppend(a, b, test);
    FilterAppend(b, a, test);
    FilterNone(b, test);
  }

  /** The new plans of one standard's run are its outcome. */
  lemma StandardRunOutcome(db: Db, e: Equipment, s: MaintenanceStandard, years: int)
    ensures var r := GenerateForStandard(db, e, s, years);
      StandardOutcome(db, e, s, years, r.db.plans[|db.plans|..])
  {
    var r := GenerateForStandard(db, e, s, years);
    SliceOfPair(r.db.plans, |db.plans|, e.id, s.maintenanceType);
    if !Saturated(db, e, s, years) {
      SliceDates(r.db.plans, |db.plans|, Candidates(db, e, s, years));
    }
  }

  lemma SliceOfPair(ps: seq<MaintenancePlan>, from: nat, equipment: Id, maintenanceType: Id)
    requires from <= |ps|
    requires forall k | from <= k < |ps| :: ps[k].equipment == equipment && ps[k].maintenanceType == maintenanceType
    ensures PlansOfPair(ps[from..], equipment, maintenanceType) == ps[from..]
  {
    forall x | x in ps[from..] ensures PairTest(equipment, maintenanceType)(x) {
      var k :| 0 <= k < |ps[from..]| && ps[from..][k] == x;
      assert ps[from + k] == x;
    }
    FilterAll(ps[from..], PairTest(equipment, maintenanceType));
  }

  lemma SliceDates(ps: seq<MaintenancePlan>, from: nat, ds: seq<Date>)
    requires from <= |ps|
    requires forall k | from <= k < |ps| :: ps[k].plannedDate in ds
    ensures forall x | x in ps[from..] :: x.plannedDate in ds
  {
    forall x | x in ps[from..] ensures x.plannedDate in ds {
      var k :| 0 <= k < |ps[from..]| && ps[from..][k] == x;
      assert ps[from + k] == x;
    }
  }

  /** The standards after the first see the pair of their own type as it was before the
      first standard ran. */
  lemma LaterStandardOutcome(db: Db, mid: Db, m: nat, e: Equipment, s: MaintenanceStandard, years: int,
                             a: seq<MaintenancePlan>, b: seq<MaintenancePlan>)
    requires Appended(db, mid, m) && a == mid.plans[|db.plans|..]
    requires forall x | x in a :: x.maintenanceType != s.maintenanceType
    requires StandardOutcome(mid, e, s, years, b)
    ensures StandardOutcome(db, e, s, years, a + b)
  {
    assert mid.plans == db.plans + a;
    OtherTypesIgnored(db.plans, a, e.id, s.maintenanceType);
    OtherTypesIgnored(b, a, e.id, s.maintenanceType);
  }

  /** Combines the outcome of the first standard with those of the others. */
  lemma OutcomeStep(db: Db, first: Run, rest: Run, e: Equipment, stds: seq<MaintenanceStandard>, years: int)
    requires stds != [] && UniqueBy(stds, StandardTypeKey)
    requires Appended(db, first.db, first.created) && Appended(first.db, rest.db, rest.created)
    requires forall k | |db.plans| <= k < |first.db.plans| :: first.db.plans[k].maintenanceType == stds[0].maintenanceType
    requires StandardOutcome(db, e, stds[0], years, first.db.plans[|db.plans|..])
    requires forall k | |first.db.plans| <= k < |rest.db.plans| :: rest.db.plans[k].maintenanceType in TypesOf(stds[1..])
    requires forall s | s in stds[1..] :: StandardOutcome(first.db, e, s, years, rest.db.plans[|first.db.plans|..])
    ensures forall s | s in stds :: StandardOutcome(db, e, s, years, rest.db.plans[|db.plans|..])
  {
    var a := first.db.plans[|db.plans|..];
    var b := rest.db.plans[|first.db.plans|..];
    SliceJoin(db, first.db, rest.db, first.created, rest.created);
    HeadTypeAbsent(stds);
    HeadOutcome(e, stds, years, db, first.db, rest.db, a, b);
    TailOutcomes(db, first, e, stds, years, a, b);
    assert forall s | s in stds :: s == stds[0] || s in stds[1..];
  }

  /** The plans appended over two runs are those of the first run followed by those of
      the second. */
  lemma SliceJoin(db: Db, mid: Db, last: Db, m: nat, n: nat)
    requires Appended(db, mid, m) && Appended(mid, last, n)
    ensures last.plans[|db.plans|..] == mid.plans[|db.plans|..] + last.plans[|mid.plans|..]
  {
    assert last.plans[..|mid.plans|] == mid.plans;
  }

  lemma HeadOutcome(e: Equipment, stds: seq<MaintenanceStandard>, years: int, db: Db, mid: Db, last: Db,
                    a: seq<MaintenancePlan>, b: seq<MaintenancePlan>)
    requires stds != [] && stds[0].maintenanceType !in TypesOf(stds[1..])
    requires |mid.plans| <= |last.plans| && b == last.plans[|mid.plans|..]
    requires forall k | |mid.plans| <= k < |last.plans| :: last.plans[k].maintenanceType in TypesOf(stds[1..])
    requires StandardOutcome(db, e, stds[0], years, a)
    ensures StandardOutcome(db, e, stds[0], years, a + b)
  {
    SliceAvoids(last.plans, |mid.plans|, stds[0].maintenanceType);
    OtherTypesIgnored(a, b, e.id, stds[0].maintenanceType);
  }

  lemma TailOutcomes(db: Db, first: Run, e: Equipment, stds: seq<MaintenanceStandard>, years: int,
                     a: seq<MaintenancePlan>, b: seq<MaintenancePlan>)
    requires stds != [] && stds[0].maintenanceType !in TypesOf(stds[1..])
    requires Appended(db, first.db, first.created) && a == first.db.plans[|db.plans|..]
    requires forall k | |db.plans| <= k < |first.db.plans| :: first.db.plans[k].maintenanceType == stds[0].maintenanceType
    requires forall s | s in stds[1..] :: StandardOutcome(first.db, e, s, years, b)
    ensures forall s | s in stds[1..] :: StandardOutcome(db, e, s, years, a + b)
  {
    forall s | s in stds[1..] ensures StandardOutcome(db, e, s, years, a + b) {
      var j :| 0 <= j < |stds[1..]| && stds[1..][j] == s;
      assert TypesOf(stds[1..])[j] == s.maintenanceType;
      SliceAvoids(first.db.plans, |db.plans|, s.maintenanceType);
      LaterStandardOutcome(db, first.db, first.created, e, s, years, a, b);
    }
  }

  lemma HeadTypeAbsent(stds: seq<MaintenanceStandard>)
    requires stds != [] && UniqueBy(stds, StandardTypeKey)
    ensures stds[0].maintenanceType !in TypesOf(stds[1..])
  {
  }

  lemma SliceAvoids(ps: seq<MaintenancePlan>, from: nat, maintenanceType: Id)
    requires from <= |ps|
    requires forall k | from <= k < |ps| :: ps[k].maintenanceType != maintenanceType
    ensures forall x | x in ps[from..] :: x.maintenanceType != maintenanceType
  {
    forall x | x in ps[from..] ensures x.maintenanceType != maintenanceType {
      var k :| 0 <= k < |ps[from..]| && ps[from..][k] == x;
      assert ps[from + k] == x;
    }
  }

  /** With distinct maintenance types, each standard contributes exactly its outcome:
      nothing when its pair is already saturated, otherwise the requested count on
      candidate dates. */
  lemma {:induction false} GenerateForStandardsOutcome(db: Db, e: Equipment, stds: seq<MaintenanceStandard>, years: int)
    requires UniqueBy(stds, StandardTypeKey)
    ensures var r := GenerateForStandards(db, e, stds, years);
      forall s | s in stds :: StandardOutcome(db, e, s, years, r.db.plans[|db.plans|..])
    decreases |stds|
  {
    if stds != [] {
      var first := GenerateForStandard(db, e, stds[0], years);
      var rest := GenerateForStandards(first.db, e, stds[1..], years);
      UniqueByTail(stds, StandardTypeKey);
      StandardRunOutcome(db, e, stds[0], years);
      GenerateForStandardsOutcome(first.db, e, stds[1..], years);
      OutcomeStep(db, first, rest, e, stds, years);
    }
  }

  /** Generates the plans of equipment `e` from the standards of its type, as they are
      stored in `db`. */
  function GenerateForEquipment(db: Db, e: Equipment, years: int): (r: Run)
    ensures Appended(db, r.db, r.created)
    ensures GeneratedFor(r.db.plans, |db.plans|, e.id)
    ensures FreshSlots(db, r.db)
    ensures forall s | s in db.standards && s.equipmentType == e.equipmentType :: Saturated(r.db, e, s, years)
    ensures forall k | |db.plans| <= k < |r.db.plans| ::
      r.db.plans[k].maintenanceType in TypesOf(StandardsFor(db, e.equipmentType))
  {
    GenerateForStandards(db, e, StandardsFor(db, e.equipmentType), years)
  }

  /** Running the standards again once each of them is saturated adds nothing. */
  lemma {:induction false} GenerateForStandardsSaturated(db: Db, e: Equipment, stds: seq<MaintenanceStandard>, years: int)
    requires forall s | s in stds :: Saturated(db, e, s, years)
    ensures GenerateForStandards(db, e, stds, years) == Run(db, 0)
    decreases |stds|
  {
    if stds != [] {
      assert stds[0] in stds;
      assert GenerateForStandard(db, e, stds[0], years) == Run(db, 0);
      assert forall s | s in stds[1..] :: s in stds;
      GenerateForStandardsSaturated(db, e, stds[1..], years);
    }
  }

  /** Generation is idempotent: a second run for the same equipment and horizon right
      after the first creates nothing and leaves the store unchanged. */
  lemma GenerateForEquipmentIdempotent(db: Db, e: Equipment, years: int)
    ensures var r := GenerateForEquipment(db, e, years);
      GenerateForEquipment(r.db, e, years) == Run(r.db, 0)
  {
    var r := GenerateForEquipment(db, e, years);
    assert r.db.standards == db.standards;
    GenerateForStandardsSaturated(r.db, e, StandardsFor(r.db, e.equipmentType), years);
  }

  /** A generation run for equipment of a consistent store keeps it consistent. */
  lemma GenerateForEquipmentValid(db: Db, e: Equipment, years: int)
    requires Valid(db) && e in db.equipment
    ensures Valid(GenerateForEquipment(db, e, years).db)
  {
    var r := GenerateForEquipment(db, e, years);
    forall k | |db.plans| <= k < |r.db.plans| ensures HasMaintenanceType(db, r.db.plans[k].maintenanceType) {
      var stds := StandardsFor(db, e.equipmentType);
      var i :| 0 <= i < |stds| && TypesOf(stds)[i] == r.db.plans[k].maintenanceType;
      assert stds[i] in db.standards;
    }
    AppendedValid(db, r.db, r.created, e.id);
  }

  /** In a store whose standards have distinct (equipment type, maintenance type) pairs,
      each standard of the equipment's type contributes exactly its outcome. */
  lemma GenerateForEquipmentOutcome(db: Db, e: Equipment, years: int)
    requires UniqueBy(db.standards, StandardPairKey)
    ensures var r := GenerateForEquipment(db, e, years);
      forall s | s in db.standards && s.equipmentType == e.equipmentType ::
        StandardOutcome(db, e, s, years, r.db.plans[|db.plans|..])
  {
    StandardsForDistinctTypes(db, e.equipmentType);
    GenerateForStandardsOutcome(db, e, StandardsFor(db, e.equipmentType), years);
  }

  /** Plan `p` is a generated plan of one of `eqs`: planned, with no actual date, notes or
      users, for an equipment of `eqs` and of the maintenance type of one of the standards
      of that equipment's type. */
  predicate GeneratedAmong(db: Db, p: MaintenancePlan, eqs: seq<Equipment>) {
    && p.status == Planned && p.actualDate == None && p.notes == ""
    && p.createdBy == None && p.updatedBy == None
    && exists e | e in eqs :: p.equipment == e.id && p.maintenanceType in TypesOf(StandardsFor(db, e.equipmentType))
  }

  /** Combines the plans generated for the first equipment with those of the others. */
  lemma AmongStep(db: Db, first: Run, rest: Run, eqs: seq<Equipment>)
    requires eqs != []
    requires Appended(db, first.db, first.created) && Appended(first.db, rest.db, rest.created)
    requires GeneratedFor(first.db.plans, |db.plans|, eqs[0].id)
    requires forall k | |db.plans| <= k < |first.db.plans| ::
      first.db.plans[k].maintenanceType in TypesOf(StandardsFor(db, eqs[0].equipmentType))
    requires forall k | |first.db.plans| <= k < |rest.db.plans| :: GeneratedAmong(first.db, rest.db.plans[k], eqs[1..])
    ensures forall k | |db.plans| <= k < |rest.db.plans| :: GeneratedAmong(db, rest.db.plans[k], eqs)
  {
    assert first.db.standards == db.standards;
    assert eqs[0] in eqs;
    forall k | |db.plans| <= k < |rest.db.plans| ensures GeneratedAmong(db, rest.db.plans[k], eqs) {
      if k < |first.db.plans| {
        assert rest.db.plans[..|first.db.plans|][k] == rest.db.plans[k];
      } else {
        var p := rest.db.plans[k];
        var e :| e in eqs[1..] && p.equipment == e.id && p.maintenanceType in TypesOf(StandardsFor(first.db, e.equipmentType));
        assert e in eqs;
      }
    }
  }

  /** Runs generation for each of `eqs` in turn; `created` is the sum of their counts. */
  function GenerateAll(db: Db, eqs: seq<Equipment>, years: int): (r: Run)
    ensures Appended(db, r.db, r.created)
    ensures FreshSlots(db, r.db)
    ensures forall e, s | e in eqs && s in db.standards && s.equipmentType == e.equipmentType ::
      Saturated(r.db, e, s, years)
    ensures forall k | |db.plans| <= k < |r.db.plans| :: GeneratedAmong(db, r.db.plans[k], eqs)
    decreases |eqs|
  {
    if eqs == [] then Run(db, 0)
    else
      var first := GenerateForEquipment(db, eqs[0], years);
      var rest := GenerateAll(first.db, eqs[1..], years);
      EquipmentStep(db, first, rest, eqs, years);
      AmongStep(db, first, rest, eqs);
      Run(rest.db, first.created + rest.created)
  }

  lemma EquipmentStep(db: Db, first: Run, rest: Run, eqs: seq<Equipment>, years: int)
    requires eqs != [] && first == GenerateForEquipment(db, eqs[0], years)
    requires Appended(first.db, rest.db, rest.created) && FreshSlots(first.db, rest.db)
    requires forall e, s | e in eqs[1..] && s in first.db.standards && s.equipmentType == e.equipmentType ::
      Saturated(rest.db, e, s, years)
    ensures Appended(db, rest.db, first.created + rest.created)
    ensures FreshSlots(db, rest.db)
    ensures forall e, s | e in eqs && s in db.standards && s.equipmentType == e.equipmentType ::
      Saturated(rest.db, e, s, years)
  {
    AppendedTrans(db, first.db, rest.db, first.created, rest.created);
    FreshSlotsTrans(db, first.db, rest.db);
    forall s | s in db.standards && s.equipmentType == eqs[0].equipmentType
      ensures Saturated(rest.db, eqs[0], s, years)
    {
      SaturatedKept(first.db, rest.db, rest.created, eqs[0], s, years);
    }
    forall e, s | e in eqs && s in db.standards && s.equipmentType == e.equipmentType
      ensures Saturated(rest.db, e, s, years)
    {
      if e != eqs[0] {
        assert e in eqs[1..];
      }
    }
  }

  /** The command: generation for every stored equipment, reporting the total count. */
  function Handle(db: Db, years: int): (r: Run)
    ensures Appended(db, r.db, r.created)
    ensures FreshSlots(db, r.db)
    ensures forall e, s | e in db.equipment && s in db.standards && s.equipmentType == e.equipmentType ::
      Saturated(r.db, e, s, years)
    ensures forall k | |db.plans| <= k < |r.db.plans| :: GeneratedAmong(db, r.db.plans[k], db.equipment)
  {
    GenerateAll(db, db.equipment, years)
  }

  /** Running generation for equipment whose standards are all saturated adds nothing. */
  lemma {:induction false} GenerateAllSaturated(db: Db, eqs: seq<Equipment>, years: int)
    requires forall e, s | e in eqs && s in db.standards && s.equipmentType == e.equipmentType ::
      Saturated(db, e, s, years)
    ensures GenerateAll(db, eqs, years) == Run(db, 0)
    decreases |eqs|
  {
    if eqs != [] {
      var e := eqs[0];
      assert e in eqs;
      GenerateForStandardsSaturated(db, e, StandardsFor(db, e.equipmentType), years);
      assert forall x | x in eqs[1..] :: x in eqs;
      GenerateAllSaturated(db, eqs[1..], years);
    }
  }

  /** The command is idempotent: run again right away, it creates nothing. */
  lemma HandleIdempotent(db: Db, years: int)
    ensures var r := Handle(db, years);
      Handle(r.db, years) == Run(r.db, 0)
  {
    var r := Handle(db, years);
    assert r.db.equipment == db.equipment && r.db.standards == db.standards;
    GenerateAllSaturated(r.db, r.db.equipment, years);
  }

  /** The command keeps a consistent store consistent. */
  lemma {:induction false} GenerateAllValid(db: Db, eqs: seq<Equipment>, years: int)
    requires Valid(db) && forall e | e in eqs :: e in db.equipment
    ensures Valid(GenerateAll(db, eqs, years).db)
    decreases |eqs|
  {
    if eqs != [] {
      var first := GenerateForEquipment(db, eqs[0], years);
      GenerateForEquipmentValid(db, eqs[0], years);
      assert first.db.equipment == db.equipment;
      assert forall e | e in eqs[1..] :: e in eqs;
      GenerateAllValid(first.db, eqs[1..], years);
    }
  }

  lemma HandleValid(db: Db, years: int)
    requires Valid(db)
    ensures Valid(Handle(db, years).db)
  {
    GenerateAllValid(db, db.equipment, years);
  }
}

=== FILE: models.dfy ===
/** The records of the maintenance application and the invariants its database keeps:
    unique keys, foreign keys that resolve, and a supply of fresh row ids. */
module Models {
  import opened Wrappers
  import opened Seqs

  /** A primary key. */
  type Id = nat
  /** The primary key of a user account. */
  type UserId = nat
  /** A calendar date, as a day number. */
  type Date = int

  /** The four states a maintenance plan can be in. */
  datatype Status = Planned | InProgress | Completed | Cancelled

  /** The code under which a status is stored. */
  function StatusCode(s: Status): string {
    match s
    case Planned => "planned"
    case InProgress => "in_progress"
    case Completed => "completed"
    case Cancelled => "cancelled"
  }

  /** Reads a stored status code; exactly the four codes of `StatusCode` are accepted. */
  function ParseStatus(code: string): (r: Option<Status>)
    ensures r.Some? ==> StatusCode(r.value) == code
    ensures r.None? ==> forall s: Status :: StatusCode(s) != code
  {
    if code == "planned" then Some(Planned)
    else if code == "in_progress" then Some(InProgress)
    else if code == "completed" then Some(Completed)
    else if code == "cancelled" then Some(Cancelled)
    else None
  }

  /** Reading back the code of a status gives that status. */
  lemma ParseStatusCode(s: Status)
    ensures ParseStatus(StatusCode(s)) == Some(s)
  {
  }

  datatype EquipmentType = EquipmentType(id: Id, name: string)

  datatype Equipment = Equipment(
    id: Id,
    name: string,
    inventoryNumber: string,
    equipmentType: Id,
    installationDate: Date)

  datatype MaintenanceType = MaintenanceType(id: Id, name: string, code: string)

  /** The codes of the three kinds of maintenance: routine inspection, current repair and
      overhaul. */
  const RoutineCode := "ТО"
  const RepairCode := "ТР"
  const OverhaulCode := "КР"

  /** The kind of maintenance a type code stands for. */
  datatype Kind = Routine | Repair | Overhaul | OtherKind

  function KindOf(code: string): (k: Kind)
    ensures k == Routine <==> code == RoutineCode
    ensures k == Repair <==> code == RepairCode
    ensures k == Overhaul <==> code == OverhaulCode
  {
    if code == RoutineCode then Routine
    else if code == RepairCode then Repair
    else if code == OverhaulCode then Overhaul
    else OtherKind
  }

  /** How often (in months) one kind of maintenance is due for one equipment type. */
  datatype MaintenanceStandard = MaintenanceStandard(
    id: Id,
    equipmentType: Id,
    maintenanceType: Id,
    frequencyMonths: int)

  /** One scheduled maintenance event of one piece of equipment. The creation and
      modification timestamps are not modelled. */
  datatype MaintenancePlan = MaintenancePlan(
    id: Id,
    equipment: Id,
    maintenanceType: Id,
    plannedDate: Date,
    actualDate: Option<Date>,
    status: Status,
    notes: string,
    createdBy: Option<UserId>,
    updatedBy: Option<UserId>)

  /** The database: one sequence per table, the set of user accounts, and the next
      unused row id. */
  datatype Db = Db(
    equipmentTypes: seq<EquipmentType>,
    equipment: seq<Equipment>,
    maintenanceTypes: seq<MaintenanceType>,
    standards: seq<MaintenanceStandard>,
    plans: seq<MaintenancePlan>,
    users: set<UserId>,
    nextId: Id)

  /** The (equipment, maintenance type, planned date) triple a plan is scheduled under. */
  datatype Slot = Slot(equipment: Id, maintenanceType: Id, plannedDate: Date)

  function SlotOf(p: MaintenancePlan): Slot {
    Slot(p.equipment, p.maintenanceType, p.plannedDate)
  }

  // Keys of the tables.
  function EquipmentTypeKey(t: EquipmentType): Id { t.id }
  function EquipmentKey(e: Equipment): Id { e.id }
  function InventoryKey(e: Equipment): string { e.inventoryNumber }
  function MaintenanceTypeKey(m: MaintenanceType): Id { m.id }
  function CodeKey(m: MaintenanceType): string { m.code }
  function StandardKey(s: MaintenanceStandard): Id { s.id }
  function StandardPairKey(s: MaintenanceStandard): (Id, Id) { (s.equipmentType, s.maintenanceType) }
  function StandardTypeKey(s: MaintenanceStandard): Id { s.maintenanceType }
  function PlanKey(p: MaintenancePlan): Id { p.id }

  predicate HasEquipmentType(db: Db, id: Id) {
    exists t :: t in db.equipmentTypes && t.id == id
  }

  predicate HasEquipment(db: Db, id: Id) {
    exists e :: e in db.equipment && e.id == id
  }

  predicate HasMaintenanceType(db: Db, id: Id) {
    exists m :: m in db.maintenanceTypes && m.id == id
  }

  predicate HasPlan(db: Db, id: Id) {
    exists p :: p in db.plans && p.id == id
  }

  /** A nullable user reference that is either empty or names an existing account. */
  predicate UserRefOk(db: Db, u: Option<UserId>) {
    u.None? || u.value in db.users
  }

  /** Every column a plan refers to through a foreign key resolves in `db`. */
  predicate PlanRefsOk(db: Db, p: MaintenancePlan) {
    && HasEquipment(db, p.equipment)
    && HasMaintenanceType(db, p.maintenanceType)
    && UserRefOk(db, p.createdBy)
    && UserRefOk(db, p.updatedBy)
  }

  /** The primary keys of every table are distinct, and so are the columns declared
      unique: the inventory number, the maintenance type code, and the (equipment type,
      maintenance type) pair of a standard. */
  predicate KeysUnique(db: Db) {
    && UniqueBy(db.equipmentTypes, EquipmentTypeKey)
    && UniqueBy(db.equipment, EquipmentKey)
    && UniqueBy(db.equipment, InventoryKey)
    && UniqueBy(db.maintenanceTypes, MaintenanceTypeKey)
    && UniqueBy(db.maintenanceTypes, CodeKey)
    && UniqueBy(db.standards, StandardKey)
    && UniqueBy(db.standards, StandardPairKey)
    && UniqueBy(db.plans, PlanKey)
  }

  /** Every foreign key resolves. */
  predicate RefsOk(db: Db) {
    && (forall e | e in db.equipment :: HasEquipmentType(db, e.equipmentType))
    && (forall s | s in db.standards ::
          HasEquipmentType(db, s.equipmentType) && HasMaintenanceType(db, s.maintenanceType))
    && (forall p | p in db.plans :: PlanRefsOk(db, p))
  }

  /** Rows that get new ids at run time have ids below `nextId`. */
  predicate IdsFresh(db: Db) {
    && (forall e | e in db.equipment :: e.id < db.nextId)
    && (forall p | p in db.plans :: p.id < db.nextId)
  }

  /** The invariant of the database. */
  predicate Valid(db: Db) {
    KeysUnique(db) && RefsOk(db) && IdsFresh(db)
  }

  function MaintenanceTypeIdIs(id: Id): MaintenanceType -> bool {
    (m: MaintenanceType) => m.id == id
  }

  /** The maintenance type row with primary key `id`. */
  function FindMaintenanceType(db: Db, id: Id): (r: Option<MaintenanceType>)
    ensures r.Some? ==> r.value in db.maintenanceTypes && r.value.id == id
    ensures r.None? <==> !HasMaintenanceType(db, id)
  {
    match FirstIndex(db.maintenanceTypes, MaintenanceTypeIdIs(id))
    case None => None
    case Some(k) => Some(db.maintenanceTypes[k])
  }

  /** The standards that apply to one equipment type, in table order. */
  function StandardsFor(db: Db, equipmentType: Id): (r: seq<MaintenanceStandard>)
    ensures forall s | s in r :: s in db.standards && s.equipmentType == equipmentType
    ensures forall s | s in db.standards && s.equipmentType == equipmentType :: s in r
  {
    Filter(db.standards, TypeTest(equipmentType))
  }

  function TypeTest(equipmentType: Id): MaintenanceStandard -> bool {
    (s: MaintenanceStandard) => s.equipmentType == equipmentType
  }

  /** The plans of one (equipment, maintenance type) pair, in table order. */
  function PlansOfPair(plans: seq<MaintenancePlan>, equipment: Id, maintenanceType: Id): seq<MaintenancePlan> {
    Filter(plans, PairTest(equipment, maintenanceType))
  }

  function PairTest(equipment: Id, maintenanceType: Id): MaintenancePlan -> bool {
    (p: MaintenancePlan) => p.equipment == equipment && p.maintenanceType == maintenanceType
  }

  /** The maintenance types of the standards for one equipment type are distinct,
      because (equipment type, maintenance type) is unique among standards. */
  lemma {:induction false} StandardsForDistinctTypes(db: Db, equipmentType: Id)
    requires UniqueBy(db.standards, StandardPairKey)
    ensures UniqueBy(StandardsFor(db, equipmentType), StandardTypeKey)
  {
    var keep := TypeTest(equipmentType);
    var r := Filter(db.standards, keep);
    FilterUniqueBy(db.standards, keep, StandardPairKey);
    forall i, j | 0 <= i < j < |r| ensures r[i].maintenanceType != r[j].maintenanceType {
      assert r[i] in r && r[j] in r;
      assert StandardPairKey(r[i]) != StandardPairKey(r[j]);
    }
  }
}

=== FILE: ordering.dfy ===
/** The default ordering of plans: ascending planned date. Every listing of plans,
    including the calendar feed, reads them in this order. */
module Ordering {
  import opened Models

  predicate SortedByDate(s: seq<MaintenancePlan>) {
    forall i, j | 0 <= i < j < |s| :: s[i].plannedDate <= s[j].plannedDate
  }

  /** Inserts `p` before the first plan dated on or after it. */
  function InsertByDate(p: MaintenancePlan, s: seq<MaintenancePlan>): (r: seq<MaintenancePlan>)
    requires SortedByDate(s)
    ensures SortedByDate(r)
    ensures multiset(r) == multiset(s) + multiset{p}
    decreases |s|
  {
    if s == [] || p.plannedDate <= s[0].plannedDate then
      LowerBoundCons(p, s);
      [p] + s
    else
      var rest := InsertByDate(p, s[1..]);
      InsertedBound(s, p, rest);
      LowerBoundCons(s[0], rest);
      assert s == [s[0]] + s[1..];
      [s[0]] + rest
  }

  /** A plan dated no later than every plan of a sorted sequence can head it. */
  lemma LowerBoundCons(h: MaintenancePlan, s: seq<MaintenancePlan>)
    requires SortedByDate(s)
    requires s == [] || h.plannedDate <= s[0].plannedDate
    ensures SortedByDate([h] + s)
  {
    var r := [h] + s;
    forall i, j | 0 <= i < j < |r| ensures r[i].plannedDate <= r[j].plannedDate {
      if i == 0 && j > 1 {
        assert r[j] == s[j - 1];
      }
    }
  }

  /** The head of a sorted sequence is no later than anything in a permutation of its
      tail plus a later plan. */
  lemma InsertedBound(s: seq<MaintenancePlan>, p: MaintenancePlan, rest: seq<MaintenancePlan>)
    requires SortedByDate(s) && s != [] && s[0].plannedDate < p.plannedDate
    requires multiset(rest) == multiset(s[1..]) + multiset{p}
    ensures rest == [] || s[0].plannedDate <= rest[0].plannedDate
  {
    if rest != [] {
      assert rest[0] in multiset(rest);
      if rest[0] != p {
        assert rest[0] in multiset(s[1..]);
        var k :| 0 <= k < |s[1..]| && s[1..][k] == rest[0];
        assert s[k + 1] == rest[0];
      }
    }
  }

  /** The plans in ascending planned-date order: a permutation of the input that is
      sorted by date. */
  function SortByDate(s: seq<MaintenancePlan>): (r: seq<MaintenancePlan>)
    ensures SortedByDate(r)
    ensures multiset(r) == multiset(s)
    decreases |s|
  {
    if s == [] then []
    else
      assert s == [s[0]] + s[1..];
      InsertByDate(s[0], SortByDate(s[1..]))
  }

  /** The plan list page: all plans, in the default order. */
  function PlanList(db: Db): (r: seq<MaintenancePlan>)
    ensures SortedByDate(r)
    ensures multiset(r) == multiset(db.plans)
  {
    SortByDate(db.plans)
  }
}

=== FILE: schedule.dfy ===
/** Date projection: the rule every plan generator uses to place maintenance dates. */
module Schedule {
  import opened Wrappers
  import opened Models
  import opened Seqs

  /** A month is counted as exactly 30 days. */
  const DaysPerMonth := 30

  /** Floor division as the `//` operator computes it: the quotient rounded toward
      minus infinity, for either sign of the divisor. */
  function FloorDiv(a: int, b: int): (q: int)
    requires b != 0
    ensures b > 0 ==> b * q <= a < b * q + b
    ensures b < 0 ==> b * q >= a > b * q + b
  {
    if b > 0 then a / b else (-a) / (-b)
  }

  /** The date `period` periods of `frequency` months after `anchor`. */
  function PeriodDate(anchor: Date, frequency: int, period: int): Date {
    anchor + frequency * DaysPerMonth * period
  }

  /** The dates of periods 1, 2, ..., n after `anchor`; empty when n <= 0. */
  function Project(anchor: Date, frequency: int, n: int): (ds: seq<Date>)
    ensures |ds| == if n > 0 then n else 0
    ensures forall k | 0 <= k < |ds| :: ds[k] == PeriodDate(anchor, frequency, k + 1)
  {
    seq(if n > 0 then n else 0, k => PeriodDate(anchor, frequency, k + 1))
  }

  lemma PeriodDateMonotone(anchor: Date, frequency: int, i: int, j: int)
    requires frequency > 0 && i < j
    ensures PeriodDate(anchor, frequency, i) < PeriodDate(anchor, frequency, j)
  {
    assert frequency * DaysPerMonth * (j - i) > 0;
  }

  /** For a positive frequency the projected dates lie strictly after the anchor and
      strictly increase. */
  lemma ProjectIncreasing(anchor: Date, frequency: int, n: int)
    requires frequency > 0
    ensures forall k | 0 <= k < |Project(anchor, frequency, n)| :: Project(anchor, frequency, n)[k] > anchor
    ensures forall j, k | 0 <= j < k < |Project(anchor, frequency, n)| ::
      Project(anchor, frequency, n)[j] < Project(anchor, frequency, n)[k]
  {
    var ds := Project(anchor, frequency, n);
    forall k | 0 <= k < |ds| ensures ds[k] > anchor {
      PeriodDateMonotone(anchor, frequency, 0, k + 1);
    }
    forall j, k | 0 <= j < k < |ds| ensures ds[j] < ds[k] {
      PeriodDateMonotone(anchor, frequency, j + 1, k + 1);
    }
  }

  /** A generated plan: status planned, no actual date, no notes, no creator or editor. */
  function NewPlan(id: Id, equipment: Id, maintenanceType: Id, date: Date): MaintenancePlan {
    MaintenancePlan(id, equipment, maintenanceType, date, None, Planned, "", None, None)
  }

  /** Generated plans for one (equipment, maintenance type) pair, one per date, with
      consecutive ids from `firstId`. */
  function PlansAt(firstId: Id, equipment: Id, maintenanceType: Id, dates: seq<Date>): (ps: seq<MaintenancePlan>)
    ensures |ps| == |dates|
    ensures forall k | 0 <= k < |ps| :: ps[k] == NewPlan(firstId + k, equipment, maintenanceType, dates[k])
  {
    seq(|dates|, k requires 0 <= k < |dates| => NewPlan(firstId + k, equipment, maintenanceType, dates[k]))
  }

  /** The planned dates of a sequence of plans. */
  function Dates(ps: seq<MaintenancePlan>): (ds: seq<Date>)
    ensures |ds| == |ps|
    ensures forall k | 0 <= k < |ps| :: ds[k] == ps[k].plannedDate
  {
    seq(|ps|, k requires 0 <= k < |ps| => ps[k].plannedDate)
  }

  /** The store after a generation run and the number of plans the run created. */
  datatype Run = Run(db: Db, created: nat)

  /** `after` extends `before` by appending `created` plans with consecutive fresh ids;
      nothing else in the database changes. */
  predicate Appended(before: Db, after: Db, created: nat) {
    && |after.plans| == |before.plans| + created
    && after.plans[..|before.plans|] == before.plans
    && after == before.(plans := after.plans, nextId := before.nextId + created)
    && forall k | |before.plans| <= k < |after.plans| ::
         after.plans[k].id == before.nextId + (k - |before.plans|)
  }

  /** Every plan appended after position `from` is a freshly generated one for
      `equipment`. */
  predicate GeneratedFor(ps: seq<MaintenancePlan>, from: nat, equipment: Id)
    requires from <= |ps|
  {
    forall k | from <= k < |ps| ::
      && ps[k].equipment == equipment
      && ps[k].status == Planned
      && ps[k].actualDate == None
      && ps[k].notes == ""
      && ps[k].createdBy == None
      && ps[k].updatedBy == None
  }

  lemma AppendedTrans(a: Db, b: Db, c: Db, m: nat, n: nat)
    requires Appended(a, b, m) && Appended(b, c, n)
    ensures Appended(a, c, m + n)
  {
    assert c.plans[..|a.plans|] == b.plans[..|a.plans|];
  }

  /** Appending generated plans with fresh ids for existing equipment and maintenance
      types keeps the database invariant. */
  lemma AppendedValid(before: Db, after: Db, created: nat, equipment: Id)
    requires Valid(before) && Appended(before, after, created)
    requires GeneratedFor(after.plans, |before.plans|, equipment)
    requires HasEquipment(before, equipment)
    requires forall k | |before.plans| <= k < |after.plans| :: HasMaintenanceType(before, after.plans[k].maintenanceType)
    ensures Valid(after)
  {
    assert after.equipmentTypes == before.equipmentTypes && after.equipment == before.equipment;
    assert after.maintenanceTypes == before.maintenanceTypes && after.standards == before.standards;
    AppendedPlansOk(before, after, created, equipment);
    AppendedPlanKeys(before, after, created);
  }

  lemma AppendedPlansOk(before: Db, after: Db, created: nat, equipment: Id)
    requires Valid(before) && Appended(before, after, created)
    requires GeneratedFor(after.plans, |before.plans|, equipment)
    requires HasEquipment(before, equipment)
    requires forall k | |before.plans| <= k < |after.plans| :: HasMaintenanceType(before, after.plans[k].maintenanceType)
    ensures forall p | p in after.plans :: PlanRefsOk(after, p) && p.id < after.nextId
  {
    var n := |before.plans|;
    assert after.equipment == before.equipment && after.maintenanceTypes == before.maintenanceTypes;
    assert after.users == before.users;
    forall p | p in after.plans ensures PlanRefsOk(after, p) && p.id < after.nextId {
      var k :| 0 <= k < |after.plans| && after.plans[k] == p;
      if k < n {
        assert after.plans[..n][k] == p;
        assert p in before.plans;
      } else {
        assert HasMaintenanceType(before, p.maintenanceType);
      }
    }
  }

  lemma AppendedPlanKeys(before: Db, after: Db, created: nat)
    requires Valid(before) && Appended(before, after, created)
    ensures UniqueBy(after.plans, PlanKey)
  {
    var n := |before.plans|;
    forall i, j | 0 <= i < j < |after.plans| ensures after.plans[i].id != after.plans[j].id {
      if j < n {
        assert after.plans[..n][i] == after.plans[i] && after.plans[..n][j] == after.plans[j];
      } else if i < n {
        assert after.plans[..n][i] == after.plans[i];
        assert after.plans[i] in before.plans;
      }
    }
  }
}

=== FILE: seed.dfy ===
/** The demonstration data command: standards for every equipment type from a fixed
    frequency table, and plans over a two-year horizon that skip dates more than a month
    in the past, with a drawn status, an actual date near the planned one for completed
    plans, and notes chosen by maintenance type and status. The random draws and "today"
    are parameters. */
module Seed {
  import opened Wrappers
  import opened Seqs
  import opened Models
  import opened Schedule

  /** Seeded plans cover 24 months from installation. */
  const SeedHorizonMonths := 24
  /** Dates more than this many days before today are not seeded. */
  const RecentDays := 30
  /** A completed plan's actual date lies this many days around its planned date. */
  const EarliestOffset := -5
  const LatestOffset := 2
  /** Equipment is installed between 180 and 180 + 365 days before today. */
  const InstalledAtLeastDaysAgo := 180
  const InstallationSpreadDays := 365

  /** The number of days a completed plan's actual date differs from the planned one. */
  type Offset = x: int | EarliestOffset <= x <= LatestOffset

  /** The random choices for one seeded plan: its status, and the offset of its actual
      date, which is used only when the status is completed. */
  datatype Draw = Draw(status: Status, offset: Offset)

  datatype SeedError =
    | DivisionByZero
    | MissingMaintenanceType(id: Id)

  /** The frequency table of the standards, in months, by kind of maintenance: monthly
      inspection, repair every six months, overhaul every three years. */
  function FrequencyOf(k: Kind): (f: Option<int>)
    ensures f.Some? <==> k != OtherKind
    ensures f.Some? ==> f.value > 0
  {
    match k
    case Routine => Some(1)
    case Repair => Some(6)
    case Overhaul => Some(36)
    case OtherKind => None
  }

  /** The table looked up by maintenance type code. */
  function StandardFrequency(code: string): (f: Option<int>)
    ensures code == RoutineCode ==> f == Some(1)
    ensures code == RepairCode ==> f == Some(6)
    ensures code == OverhaulCode ==> f == Some(36)
    ensures f.None? <==> code != RoutineCode && code != RepairCode && code != OverhaulCode
    ensures f.Some? ==> f.value > 0
  {
    FrequencyOf(KindOf(code))
  }

  /** A maintenance type whose code is in the frequency table. */
  predicate InTable(m: MaintenanceType) {
    KindOf(m.code) != OtherKind
  }

  /** The standards of one equipment type: one per maintenance type whose code is in the
      table, in the order of `mts`, with consecutive ids from `firstId`. */
  function StandardsOfType(equipmentType: Id, mts: seq<MaintenanceType>, firstId: Id): (r: seq<MaintenanceStandard>)
    ensures |r| <= |mts|
    ensures forall k | 0 <= k < |r| ::
      r[k].id == firstId + k && r[k].equipmentType == equipmentType && r[k].frequencyMonths > 0
  {
    var t := Filter(mts, InTable);
    assert forall k | 0 <= k < |t| :: t[k] in t;
    seq(|t|, k requires 0 <= k < |t| =>
          MaintenanceStandard(firstId + k, equipmentType, t[k].id, StandardFrequency(t[k].code).value))
  }

  /** Every standard of a type comes from one of the maintenance types, with the table's
      frequency for its code. */
  lemma StandardsOfTypeSound(equipmentType: Id, mts: seq<MaintenanceType>, firstId: Id)
    ensures forall s | s in StandardsOfType(equipmentType, mts, firstId) :: exists m | m in mts ::
      m.id == s.maintenanceType && StandardFrequency(m.code) == Some(s.frequencyMonths)
  {
    var t := Filter(mts, InTable);
    var r := StandardsOfType(equipmentType, mts, firstId);
    forall s | s in r
      ensures exists m | m in mts :: m.id == s.maintenanceType && StandardFrequency(m.code) == Some(s.frequencyMonths)
    {
      var k :| 0 <= k < |r| && r[k] == s;
      assert t[k] in t;
    }
  }

  /** Every maintenance type in the table gets a standard for the type. */
  lemma StandardsOfTypeComplete(equipmentType: Id, mts: seq<MaintenanceType>, firstId: Id)
    ensures forall m | m in mts && StandardFrequency(m.code).Some? ::
      exists s | s in StandardsOfType(equipmentType, mts, firstId) ::
        s.equipmentType == equipmentType && s.maintenanceType == m.id
  {
    var t := Filter(mts, InTable);
    var r := StandardsOfType(equipmentType, mts, firstId);
    forall m | m in mts && StandardFrequency(m.code).Some?
      ensures exists s | s in r :: s.equipmentType == equipmentType && s.maintenanceType == m.id
    {
      assert m in t;
      var k :| 0 <= k < |t| && t[k] == m;
      assert r[k] in r;
    }
  }

  /** The standards the command creates: for each equipment type, in order, those of
      `StandardsOfType`, with consecutive ids from `firstId`. Every frequency is positive,
      so seeding plans from them never divides by zero. */
  function SeedStandards(ets: seq<Id>, mts: seq<MaintenanceType>, firstId: Id): (r: seq<MaintenanceStandard>)
    ensures forall k | 0 <= k < |r| :: r[k].id == firstId + k && r[k].frequencyMonths > 0
    decreases |ets|
  {
    if ets == [] then []
    else
      var block := StandardsOfType(ets[0], mts, firstId);
      var rest := SeedStandards(ets[1..], mts, firstId + |block|);
      assert forall k | |block| <= k < |block + rest| :: (block + rest)[k] == rest[k - |block|];
      block + rest
  }

  /** Every seeded standard is for one of the equipment types and comes from one of the
      maintenance types, with the table's frequency. */
  lemma {:induction false} SeedStandardsSound(ets: seq<Id>, mts: seq<MaintenanceType>, firstId: Id)
    ensures forall s | s in SeedStandards(ets, mts, firstId) :: s.equipmentType in ets && exists m | m in mts ::
      m.id == s.maintenanceType && StandardFrequency(m.code) == Some(s.frequencyMonths)
    decreases |ets|
  {
    if ets != [] {
      var block := StandardsOfType(ets[0], mts, firstId);
      var rest := SeedStandards(ets[1..], mts, firstId + |block|);
      assert SeedStandards(ets, mts, firstId) == block + rest;
      StandardsOfTypeSound(ets[0], mts, firstId);
      SeedStandardsSound(ets[1..], mts, firstId + |block|);
      forall s: MaintenanceStandard | s in block + rest
        ensures s.equipmentType in ets && exists m | m in mts ::
          m.id == s.maintenanceType && StandardFrequency(m.code) == Some(s.frequencyMonths)
      {
        if s in block {
          var k :| 0 <= k < |block| && block[k] == s;
          assert ets[0] in ets;
        } else {
          assert s in rest;
          assert s.equipmentType in ets[1..];
        }
      }
    }
  }

  /** Every pair of an equipment type and a maintenance type in the table gets a standard. */
  lemma {:induction false} SeedStandardsComplete(ets: seq<Id>, mts: seq<MaintenanceType>, firstId: Id)
    ensures forall et, m | et in ets && m in mts && StandardFrequency(m.code).Some? ::
      exists s | s in SeedStandards(ets, mts, firstId) :: s.equipmentType == et && s.maintenanceType == m.id
    decreases |ets|
  {
    if ets != [] {
      var block := StandardsOfType(ets[0], mts, firstId);
      var rest := SeedStandards(ets[1..], mts, firstId + |block|);
      var r := block + rest;
      assert SeedStandards(ets, mts, firstId) == r;
      forall et, m | et in ets && m in mts && StandardFrequency(m.code).Some?
        ensures exists s: MaintenanceStandard | s in r :: s.equipmentType == et && s.maintenanceType == m.id
      {
        if et == ets[0] {
          StandardsOfTypeComplete(ets[0], mts, firstId);
          var s :| s in block && s.equipmentType == et && s.maintenanceType == m.id;
          assert s in r;
        } else {
          assert et in ets[1..];
          SeedStandardsComplete(ets[1..], mts, firstId + |block|);
          var s :| s in rest && s.equipmentType == et && s.maintenanceType == m.id;
          assert s in r;
        }
      }
    }
  }

  function RecentTest(today: Date): Date -> bool {
    (d: Date) => d >= today - RecentDays
  }

  /** The dates seeded for one standard of frequency `frequency`: periods 1 .. 24 // F
      after installation, leaving out those more than 30 days before today. A frequency of
      zero makes the floor division fail. */
  function SeedDates(installation: Date, frequency: int, today: Date): (r: Result<seq<Date>, SeedError>)
    ensures r.Err? <==> frequency == 0
    ensures r.Err? ==> r.error == DivisionByZero
    ensures r.Ok? ==> forall d | d in r.value :: d >= today - RecentDays
    ensures r.Ok? ==> forall d | d in r.value ::
      d in Project(installation, frequency, FloorDiv(SeedHorizonMonths, frequency))
    ensures r.Ok? ==> forall d | d in Project(installation, frequency, FloorDiv(SeedHorizonMonths, frequency))
      && d >= today - RecentDays :: d in r.value
    ensures r.Ok? ==> forall j, k | 0 <= j < k < |r.value| :: r.value[j] < r.value[k]
  {
    if frequency == 0 then Err(DivisionByZero)
    else
      RecentPeriodsIncreasing(installation, frequency, today);
      Ok(Filter(Project(installation, frequency, FloorDiv(SeedHorizonMonths, frequency)), RecentTest(today)))
  }

  /** The recent periods of a nonzero frequency ascend strictly: a negative frequency projects no period at all. */
  lemma RecentPeriodsIncreasing(installation: Date, frequency: int, today: Date)
    requires frequency != 0
    ensures forall j, k | 0 <= j < k < |Filter(Project(installation, frequency, FloorDiv(SeedHorizonMonths, frequency)), RecentTest(today))| ::
      Filter(Project(installation, frequency, FloorDiv(SeedHorizonMonths, frequency)), RecentTest(today))[j]
      < Filter(Project(installation, frequency, FloorDiv(SeedHorizonMonths, frequency)), RecentTest(today))[k]
  {
    var periods := Project(installation, frequency, FloorDiv(SeedHorizonMonths, frequency));
    if frequency > 0 {
      ProjectIncreasing(installation, frequency, FloorDiv(SeedHorizonMonths, frequency));
    }
    FilterIncreasing(periods, RecentTest(today));
  }

  /** The notes template for a kind of maintenance and a status; there is none for an
      unknown kind. */
  function NotesTemplate(k: Kind, status: Status): (notes: string)
    ensures notes != "" <==> k != OtherKind
  {
    match k
    case Routine => RoutineNotes(status)
    case Repair => RepairNotes(status)
    case Overhaul => OverhaulNotes(status)
    case OtherKind => ""
  }

  function RoutineNotes(status: Status): (notes: string)
    ensures notes != ""
  {
    match status
    case Planned => "Запланирован технический осмотр согласно графику"
    case InProgress => "Проводится визуальный осмотр и проверка параметров"
    case Completed => "Технический осмотр выполнен. Замечаний нет."
    case Cancelled => "Осмотр перенесен в связи с производственной необходимостью"
  }

  function RepairNotes(status: Status): (notes: string)
    ensures notes != ""
  {
    match status
    case Planned => "Запланирован технический ремонт по графику"
    case InProgress => "Выполняется замена изношенных деталей и регулировка"
    case Completed => "Технический ремонт завершен. Оборудование готово к работе."
    case Cancelled => "Ремонт перенесен на следующий период"
  }

  function OverhaulNotes(status: Status): (notes: string)
    ensures notes != ""
  {
    match status
    case Planned => "Запланирован капитальный ремонт оборудования"
    case InProgress => "Выполняется полная разборка и замена основных узлов"
    case Completed => "Капитальный ремонт выполнен. Оборудование прошло испытания."
    case Cancelled => "Капитальный ремонт отложен по техническим причинам"
  }

  /** The notes for a maintenance type code and a stored status code: the template of
      the pair, or the empty text when the code or the status is unknown. */
  function GenerateNotes(code: string, status: string): (notes: string)
    ensures notes != "" <==> KindOf(code) != OtherKind && ParseStatus(status).Some?
    ensures forall s: Status :: status == StatusCode(s) ==> notes == NotesTemplate(KindOf(code), s)
  {
    assert forall s: Status :: ParseStatus(StatusCode(s)) == Some(s) by {
      forall s: Status { ParseStatusCode(s); }
    }
    match ParseStatus(status)
    case None => ""
    case Some(s) => NotesTemplate(KindOf(code), s)
  }

  /** A plan seeded with maintenance type `m`: it lies no more than 30 days in the past,
      carries the drawn status, has an actual date exactly when completed and then within
      the offset window, was created by no user, and its notes are the template of the
      type's code and its status. */
  predicate Seeded(p: MaintenancePlan, m: MaintenanceType, today: Date, draws: Id -> Draw) {
    && p.maintenanceType == m.id
    && p.plannedDate >= today - RecentDays
    && p.status == draws(p.id).status
    && (p.actualDate.Some? <==> p.status == Completed)
    && (p.actualDate.Some? ==>
          p.plannedDate + EarliestOffset <= p.actualDate.value <= p.plannedDate + LatestOffset)
    && p.createdBy.None? && p.updatedBy.None?
    && p.notes == NotesTemplate(KindOf(m.code), p.status)
  }

  /** A plan seeded with one of the stored maintenance types. */
  predicate SeededIn(db: Db, p: MaintenancePlan, today: Date, draws: Id -> Draw) {
    exists m | m in db.maintenanceTypes :: Seeded(p, m, today, draws)
  }

  /** The plan seeded with id `id` on `date` for equipment `equipment` and type `m`. Its
      notes are those `GenerateNotes` gives for the type's code and the drawn status's
      code, which by `GenerateNotes`'s contract is the template of the pair. */
  function SeedPlan(id: Id, equipment: Id, m: MaintenanceType, date: Date, draw: Draw): (p: MaintenancePlan)
    ensures p.id == id && p.equipment == equipment && p.maintenanceType == m.id && p.plannedDate == date
    ensures p.status == draw.status
    ensures p.actualDate.Some? <==> draw.status == Completed
    ensures p.actualDate.Some? ==> date + EarliestOffset <= p.actualDate.value <= date + LatestOffset
    ensures p.notes == NotesTemplate(KindOf(m.code), draw.status)
  {
    var actual := if draw.status == Completed then Some(date + draw.offset) else None;
    MaintenancePlan(id, equipment, m.id, date, actual, draw.status,
                    NotesTemplate(KindOf(m.code), draw.status), None, None)
  }

  /** A seeded plan's notes are what `GenerateNotes` answers for its type's code and the
      stored code of its status. */
  lemma SeedPlanNotes(id: Id, equipment: Id, m: MaintenanceType, date: Date, draw: Draw)
    ensures SeedPlan(id, equipment, m, date, draw).notes == GenerateNotes(m.code, StatusCode(draw.status))
  {
  }

  /** A plan built by `SeedPlan` from a recent date is a seeded plan of its type. */
  lemma SeedPlanSeeded(id: Id, equipment: Id, m: MaintenanceType, date: Date, today: Date, draws: Id -> Draw)
    requires date >= today - RecentDays
    ensures Seeded(SeedPlan(id, equipment, m, date, draws(id)), m, today, draws)
  {
  }

  /** The plans seeded on `dates` for equipment `e` and maintenance type `m`, with
      consecutive ids from `firstId`; plan `id` uses draw `draws(id)`. */
  function SeedBlock(e: Equipment, m: MaintenanceType, dates: seq<Date>, today: Date,
                     draws: Id -> Draw, firstId: Id): (ps: seq<MaintenancePlan>)
    requires forall d | d in dates :: d >= today - RecentDays
    ensures Dates(ps) == dates
    ensures forall k | 0 <= k < |ps| ::
      ps[k].id == firstId + k && ps[k].equipment == e.id && Seeded(ps[k], m, today, draws)
    decreases |dates|
  {
    if dates == [] then []
    else
      var p := SeedPlan(firstId, e.id, m, dates[0], draws(firstId));
      assert dates[0] in dates;
      assert forall d | d in dates[1..] :: d in dates;
      SeedPlanSeeded(firstId, e.id, m, dates[0], today, draws);
      var rest := SeedBlock(e, m, dates[1..], today, draws, firstId + 1);
      SeedBlockStep(e, m, dates, today, draws, firstId, p, rest);
      [p] + rest
  }

  lemma SeedBlockStep(e: Equipment, m: MaintenanceType, dates: seq<Date>, today: Date, draws: Id -> Draw,
                      firstId: Id, p: MaintenancePlan, rest: seq<MaintenancePlan>)
    requires dates != []
    requires p.id == firstId && p.equipment == e.id && p.plannedDate == dates[0]
    requires Seeded(p, m, today, draws)
    requires Dates(rest) == dates[1..]
    requires forall k | 0 <= k < |rest| ::
      rest[k].id == firstId + 1 + k && rest[k].equipment == e.id && Seeded(rest[k], m, today, draws)
    ensures Dates([p] + rest) == dates
    ensures forall k | 0 <= k < |[p] + rest| ::
      ([p] + rest)[k].id == firstId + k && ([p] + rest)[k].equipment == e.id && Seeded(([p] + rest)[k], m, today, draws)
  {
    DatesCons(p, rest, dates);
    assert forall k | 1 <= k < |[p] + rest| :: ([p] + rest)[k] == rest[k - 1];
  }

  lemma DatesCons(p: MaintenancePlan, rest: seq<MaintenancePlan>, dates: seq<Date>)
    requires dates != [] && p.plannedDate == dates[0] && Dates(rest) == dates[1..]
    ensures Dates([p] + rest) == dates
  {
    assert forall k | 1 <= k < |dates| :: dates[k] == dates[1..][k - 1] && ([p] + rest)[k] == rest[k - 1];
  }

  /** The plans seeded for one standard of equipment `e`, with consecutive ids from
      `firstId`. The standard's maintenance type is only looked up when there is a date
      to seed. */
  function PlansForStandard(db: Db, e: Equipment, s: MaintenanceStandard, today: Date, draws: Id -> Draw,
                            firstId: Id): (r: Result<seq<MaintenancePlan>, SeedError>)
    ensures s.frequencyMonths == 0 ==> r == Err(DivisionByZero)
    ensures s.frequencyMonths != 0 && HasMaintenanceType(db, s.maintenanceType) ==> r.Ok?
    ensures r.Ok? ==> forall k | 0 <= k < |r.value| ::
      && r.value[k].id == firstId + k
      && r.value[k].equipment == e.id && r.value[k].maintenanceType == s.maintenanceType
      && SeededIn(db, r.value[k], today, draws)
    ensures r.Ok? ==> Dates(r.value) == SeedDates(e.installationDate, s.frequencyMonths, today).value
  {
    match SeedDates(e.installationDate, s.frequencyMonths, today)
    case Err(err) => Err(err)
    case Ok(dates) =>
      if dates == [] then Ok([])
      else
        match FindMaintenanceType(db, s.maintenanceType)
        case None => Err(MissingMaintenanceType(s.maintenanceType))
        case Some(m) =>
          var ps := SeedBlock(e, m, dates, today, draws, firstId);
          assert forall k | 0 <= k < |ps| :: SeededIn(db, ps[k], today, draws) by {
            forall k | 0 <= k < |ps| ensures SeededIn(db, ps[k], today, draws) {
              assert Seeded(ps[k], m, today, draws);
            }
          }
          Ok(ps)
  }

  /** Every standard whose frequency is non-zero and whose maintenance type exists. */
  predicate Seedable(db: Db, stds: seq<MaintenanceStandard>) {
    forall s | s in stds :: s.frequencyMonths != 0 && HasMaintenanceType(db, s.maintenanceType)
  }

  /** The slots of a run of plans, in order. */
  function SlotsOf(ps: seq<MaintenancePlan>): (ss: seq<Slot>)
    ensures |ss| == |ps|
    ensures forall k | 0 <= k < |ps| :: ss[k] == SlotOf(ps[k])
  {
    seq(|ps|, k requires 0 <= k < |ps| => SlotOf(ps[k]))
  }

  lemma SlotsOfConcat(a: seq<MaintenancePlan>, b: seq<MaintenancePlan>)
    ensures SlotsOf(a + b) == SlotsOf(a) + SlotsOf(b)
  {
    assert forall k | |a| <= k < |a + b| :: (a + b)[k] == b[k - |a|];
  }

  /** The slots standard `s` of equipment `e` is to be seeded on: one per seed date, in
      order, or none when the dates cannot be computed. */
  function StandardSlots(e: Equipment, s: MaintenanceStandard, today: Date): seq<Slot> {
    match SeedDates(e.installationDate, s.frequencyMonths, today)
    case Err(_) => []
    case Ok(ds) => seq(|ds|, k requires 0 <= k < |ds| => Slot(e.id, s.maintenanceType, ds[k]))
  }

  /** The slots of the standards `stds` of equipment `e`, one standard after the other. */
  function EquipmentSlots(e: Equipment, stds: seq<MaintenanceStandard>, today: Date): seq<Slot>
    decreases |stds|
  {
    if stds == [] then [] else StandardSlots(e, stds[0], today) + EquipmentSlots(e, stds[1..], today)
  }

  /** The slots of every equipment of `eqs` in turn, each from the stored standards of
      its type. */
  function StoreSlots(db: Db, eqs: seq<Equipment>, today: Date): seq<Slot>
    decreases |eqs|
  {
    if eqs == [] then []
    else EquipmentSlots(eqs[0], StandardsFor(db, eqs[0].equipmentType), today) + StoreSlots(db, eqs[1..], today)
  }

  /** The number of dates seeded for the standards `stds` of equipment `e`. */
  function SeedCount(e: Equipment, stds: seq<MaintenanceStandard>, today: Date): nat
    decreases |stds|
  {
    if stds == [] then 0
    else
      var here := match SeedDates(e.installationDate, stds[0].frequencyMonths, today)
        case Err(_) => 0
        case Ok(ds) => |ds|;
      here + SeedCount(e, stds[1..], today)
  }

  /** There is one slot per seed date of each standard. */
  lemma {:induction false} EquipmentSlotsCount(e: Equipment, stds: seq<MaintenanceStandard>, today: Date)
    ensures |EquipmentSlots(e, stds, today)| == SeedCount(e, stds, today)
    decreases |stds|
  {
    if stds != [] {
      EquipmentSlotsCount(e, stds[1..], today);
    }
  }

  /** Every seed date of every standard with a non-zero frequency has its slot. */
  lemma {:induction false} EquipmentSlotsCover(e: Equipment, stds: seq<MaintenanceStandard>, today: Date)
    ensures forall s, d | s in stds && s.frequencyMonths != 0
      && d in SeedDates(e.installationDate, s.frequencyMonths, today).value ::
        Slot(e.id, s.maintenanceType, d) in EquipmentSlots(e, stds, today)
    decreases |stds|
  {
    if stds != [] {
      EquipmentSlotsCover(e, stds[1..], today);
      forall s, d | s in stds && s.frequencyMonths != 0
        && d in SeedDates(e.installationDate, s.frequencyMonths, today).value
        ensures Slot(e.id, s.maintenanceType, d) in EquipmentSlots(e, stds, today)
      {
        if s == stds[0] {
          var ds := SeedDates(e.installationDate, s.frequencyMonths, today).value;
          var k :| 0 <= k < |ds| && ds[k] == d;
          assert StandardSlots(e, s, today)[k] == Slot(e.id, s.maintenanceType, d);
        } else {
          assert s in stds[1..];
        }
      }
    }
  }

  /** Every seed date of every standard of every equipment of `eqs` has its slot. */
  lemma {:induction false} StoreSlotsCover(db: Db, eqs: seq<Equipment>, today: Date)
    ensures forall e, s, d | e in eqs && s in StandardsFor(db, e.equipmentType) && s.frequencyMonths != 0
      && d in SeedDates(e.installationDate, s.frequencyMonths, today).value ::
        Slot(e.id, s.maintenanceType, d) in StoreSlots(db, eqs, today)
    decreases |eqs|
  {
    if eqs != [] {
      StoreSlotsCover(db, eqs[1..], today);
      EquipmentSlotsCover(eqs[0], StandardsFor(db, eqs[0].equipmentType), today);
      forall e, s, d | e in eqs && s in StandardsFor(db, e.equipmentType) && s.frequencyMonths != 0
        && d in SeedDates(e.installationDate, s.frequencyMonths, today).value
        ensures Slot(e.id, s.maintenanceType, d) in StoreSlots(db, eqs, today)
      {
        if e != eqs[0] {
          assert e in eqs[1..];
        }
      }
    }
  }

  /** A block seeded for one standard lies on the standard's slots. */
  lemma BlockSlots(e: Equipment, s: MaintenanceStandard, today: Date, ps: seq<MaintenancePlan>)
    requires s.frequencyMonths != 0
    requires Dates(ps) == SeedDates(e.installationDate, s.frequencyMonths, today).value
    requires forall k | 0 <= k < |ps| :: ps[k].equipment == e.id && ps[k].maintenanceType == s.maintenanceType
    ensures SlotsOf(ps) == StandardSlots(e, s, today)
  {
    var ds := SeedDates(e.installationDate, s.frequencyMonths, today).value;
    assert forall k | 0 <= k < |ps| :: ps[k].plannedDate == ds[k];
  }

  /** The plans seeded for equipment `e` from the standards `stds`, one standard after the
      other, with consecutive ids from `firstId`. */
  function PlansForStandards(db: Db, e: Equipment, stds: seq<MaintenanceStandard>, today: Date,
                             draws: Id -> Draw, firstId: Id): (r: Result<seq<MaintenancePlan>, SeedError>)
    ensures Seedable(db, stds) ==> r.Ok?
    ensures r.Ok? ==> forall k | 0 <= k < |r.value| ::
      && r.value[k].id == firstId + k && r.value[k].equipment == e.id
      && SeededIn(db, r.value[k], today, draws)
    ensures r.Ok? ==> SlotsOf(r.value) == EquipmentSlots(e, stds, today)
    decreases |stds|
  {
    if stds == [] then Ok([])
    else
      assert Seedable(db, stds) ==> Seedable(db, stds[1..]) by {
        assert forall s | s in stds[1..] :: s in stds;
      }
      match PlansForStandard(db, e, stds[0], today, draws, firstId)
      case Err(err) => Err(err)
      case Ok(block) =>
        match PlansForStandards(db, e, stds[1..], today, draws, firstId + |block|)
        case Err(err) => Err(err)
        case Ok(rest) =>
          SeededConcat(db, e.id, block, rest, today, draws, firstId);
          BlockSlots(e, stds[0], today, block);
          SlotsOfConcat(block, rest);
          Ok(block + rest)
  }

  /** Two runs of seeded plans for one equipment, the second numbered on from the first,
      join into one. */
  lemma SeededConcat(db: Db, equipment: Id, block: seq<MaintenancePlan>, rest: seq<MaintenancePlan>,
                     today: Date, draws: Id -> Draw, firstId: Id)
    requires forall k | 0 <= k < |block| ::
      block[k].id == firstId + k && block[k].equipment == equipment && SeededIn(db, block[k], today, draws)
    requires forall k | 0 <= k < |rest| ::
      rest[k].id == firstId + |block| + k && rest[k].equipment == equipment && SeededIn(db, rest[k], today, draws)
    ensures forall k | 0 <= k < |block + rest| ::
      && (block + rest)[k].id == firstId + k && (block + rest)[k].equipment == equipment
      && SeededIn(db, (block + rest)[k], today, draws)
  {
    assert forall k | |block| <= k < |block + rest| :: (block + rest)[k] == rest[k - |block|];
  }

  /** The plans seeded for each of `eqs` in turn from the stored standards of its type,
      with consecutive ids from `firstId`. */
  function SeedPlans(db: Db, eqs: seq<Equipment>, today: Date, draws: Id -> Draw, firstId: Id)
    : (r: Result<seq<MaintenancePlan>, SeedError>)
    ensures Seedable(db, db.standards) ==> r.Ok?
    ensures r.Ok? ==> forall k | 0 <= k < |r.value| ::
      && r.value[k].id == firstId + k
      && (exists e | e in eqs :: r.value[k].equipment == e.id)
      && SeededIn(db, r.value[k], today, draws)
    ensures r.Ok? ==> SlotsOf(r.value) == StoreSlots(db, eqs, today)
    decreases |eqs|
  {
    if eqs == [] then Ok([])
    else
      var e := eqs[0];
      assert Seedable(db, db.standards) ==> Seedable(db, StandardsFor(db, e.equipmentType));
      match PlansForStandards(db, e, StandardsFor(db, e.equipmentType), today, draws, firstId)
      case Err(err) => Err(err)
      case Ok(block) =>
        match SeedPlans(db, eqs[1..], today, draws, firstId + |block|)
        case Err(err) => Err(err)
        case Ok(rest) =>
          SeedPlansStep(eqs, block, rest, firstId);
          SlotsOfConcat(block, rest);
          Ok(block + rest)
  }

  lemma SeedPlansStep(eqs: seq<Equipment>, block: seq<MaintenancePlan>, rest: seq<MaintenancePlan>, firstId: Id)
    requires eqs != []
    requires forall k | 0 <= k < |block| :: block[k].id == firstId + k && block[k].equipment == eqs[0].id
    requires forall k | 0 <= k < |rest| ::
      rest[k].id == firstId + |block| + k && exists e | e in eqs[1..] :: rest[k].equipment == e.id
    ensures forall k | 0 <= k < |block + rest| ::
      (block + rest)[k].id == firstId + k && exists e | e in eqs :: (block + rest)[k].equipment == e.id
  {
    assert eqs[0] in eqs;
    assert forall e | e in eqs[1..] :: e in eqs;
    forall k | 0 <= k < |block + rest|
      ensures (block + rest)[k].id == firstId + k && exists e | e in eqs :: (block + rest)[k].equipment == e.id
    {
      if k >= |block| {
        assert (block + rest)[k] == rest[k - |block|];
      }
    }
  }

  /** Seeding the plans of every stored equipment appends them to the store. */
  function SeedStore(db: Db, today: Date, draws: Id -> Draw): (r: Result<Db, SeedError>)
    ensures Seedable(db, db.standards) ==> r.Ok?
    ensures r.Ok? ==>
      && |r.value.plans| >= |db.plans|
      && Appended(db, r.value, |r.value.plans| - |db.plans|)
      && (forall k | |db.plans| <= k < |r.value.plans| :: SeededIn(db, r.value.plans[k], today, draws))
      && SlotsOf(r.value.plans[|db.plans|..]) == StoreSlots(db, db.equipment, today)
  {
    match SeedPlans(db, db.equipment, today, draws, db.nextId)
    case Err(err) => Err(err)
    case Ok(ps) =>
      var plans := db.plans + ps;
      assert plans[..|db.plans|] == db.plans;
      assert plans[|db.plans|..] == ps;
      assert forall k | |db.plans| <= k < |plans| :: plans[k] == ps[k - |db.plans|];
      Ok(db.(plans := plans, nextId := db.nextId + |ps|))
  }

  /** After seeding, every seed date of every stored standard of every stored equipment
      has a new plan on its slot. */
  lemma SeedStoreCovers(db: Db, today: Date, draws: Id -> Draw)
    requires SeedStore(db, today, draws).Ok?
    ensures var after := SeedStore(db, today, draws).value;
      forall e, s, d | e in db.equipment && s in StandardsFor(db, e.equipmentType) && s.frequencyMonths != 0
        && d in SeedDates(e.installationDate, s.frequencyMonths, today).value ::
          Slot(e.id, s.maintenanceType, d) in SlotsOf(after.plans[|db.plans|..])
  {
    StoreSlotsCover(db, db.equipment, today);
  }

  /** The installation date of seeded equipment, `back` days before the earliest one. */
  function InstallationDate(today: Date, back: int): (d: Date)
    requires 0 <= back <= InstallationSpreadDays
    ensures today - InstalledAtLeastDaysAgo - InstallationSpreadDays <= d <= today - InstalledAtLeastDaysAgo
  {
    today - InstalledAtLeastDaysAgo - back
  }
}

=== FILE: seqs.dfy ===
/** Sequence helpers shared by the store model: filtering and uniqueness of a key. */
module Seqs {
  import opened Wrappers

  /** The elements of `s` that satisfy `keep`, in their original order. */
  function Filter<T>(s: seq<T>, keep: T -> bool): (r: seq<T>)
    ensures |r| <= |s|
    ensures forall x | x in r :: x in s && keep(x)
    ensures forall x | x in s && keep(x) :: x in r
    decreases |s|
  {
    if s == [] then []
    else if keep(s[0]) then [s[0]] + Filter(s[1..], keep)
    else Filter(s[1..], keep)
  }

  /** The position of the first element of `s` that satisfies `test`, if any. */
  function FirstIndex<T>(s: seq<T>, test: T -> bool): (r: Option<nat>)
    ensures r.Some? ==> r.value < |s| && test(s[r.value])
    ensures r.Some? ==> forall k | 0 <= k < r.value :: !test(s[k])
    ensures r.None? <==> forall x | x in s :: !test(x)
    decreases |s|
  {
    if s == [] then None
    else if test(s[0]) then Some(0)
    else
      match FirstIndex(s[1..], test)
      case None => None
      case Some(k) => Some(k + 1)
  }

  /** `f` applied to every element of `s`, in order, or `None` when it fails on one. */
  function MapAll<T, U>(s: seq<T>, f: T -> Option<U>): (r: Option<seq<U>>)
    ensures r.Some? <==> forall x | x in s :: f(x).Some?
    ensures r.Some? ==> |r.value| == |s|
    ensures r.Some? ==> forall i | 0 <= i < |s| :: Some(r.value[i]) == f(s[i])
    decreases |s|
  {
    if s == [] then Some([])
    else
      match (f(s[0]), MapAll(s[1..], f))
      case (Some(y), Some(rest)) =>
        assert forall i | 1 <= i < |s| :: s[i] == s[1..][i - 1] && ([y] + rest)[i] == rest[i - 1];
        Some([y] + rest)
      case (None, _) => None
      case (_, None) =>
        assert forall x | x in s[1..] :: x in s;
        None
  }

  /** No two positions of `s` carry the same key. */
  predicate UniqueBy<T, K(==)>(s: seq<T>, key: T -> K) {
    forall i, j | 0 <= i < j < |s| :: key(s[i]) != key(s[j])
  }

  lemma UniqueByTail<T, K>(s: seq<T>, key: T -> K)
    requires UniqueBy(s, key) && s != []
    ensures UniqueBy(s[1..], key)
  {
    var t := s[1..];
    forall i, j | 0 <= i < j < |t| ensures key(t[i]) != key(t[j]) {
      assert t[i] == s[i + 1] && t[j] == s[j + 1];
    }
  }

  /** Filtering distributes over concatenation. */
  /** Filtering a strictly increasing sequence leaves it strictly increasing. */
  lemma {:induction false} FilterIncreasing(s: seq<int>, keep: int -> bool)
    requires forall j, k | 0 <= j < k < |s| :: s[j] < s[k]
    ensures forall j, k | 0 <= j < k < |Filter(s, keep)| :: Filter(s, keep)[j] < Filter(s, keep)[k]
    decreases |s|
  {
    if s != [] {
      var tail := Filter(s[1..], keep);
      FilterIncreasing(s[1..], keep);
      if keep(s[0]) {
        var r := Filter(s, keep);
        assert r == [s[0]] + tail;
        forall i | 0 <= i < |tail| ensures s[0] < tail[i] {
          assert tail[i] in tail;
          var m :| 0 <= m < |s[1..]| && s[1..][m] == tail[i];
          assert s[m + 1] == tail[i];
        }
        forall j, k | 0 <= j < k < |r| ensures r[j] < r[k] {
          assert r[k] == tail[k - 1];
          if j > 0 {
            assert r[j] == tail[j - 1];
          }
        }
      }
    }
  }

  lemma {:induction false} FilterAppend<T>(a: seq<T>, b: seq<T>, keep: T -> bool)
    ensures Filter(a + b, keep) == Filter(a, keep) + Filter(b, keep)
    decreases |a|
  {
    if a == [] {
      assert a + b == b;
    } else {
      var head := if keep(a[0]) then [a[0]] else [];
      calc {
        Filter(a + b, keep);
      == { assert (a + b)[0] == a[0] && (a + b)[1..] == a[1..] + b; }
        head + Filter(a[1..] + b, keep);
      == { FilterAppend(a[1..], b, keep); }
        head + (Filter(a[1..], keep) + Filter(b, keep));
      ==
        Filter(a, keep) + Filter(b, keep);
      }
    }
  }

  /** Filtering with a test every element passes keeps the whole sequence. */
  lemma {:induction false} FilterAll<T>(s: seq<T>, keep: T -> bool)
    requires forall x :: x in s ==> keep(x)
    ensures Filter(s, keep) == s
    decreases |s|
  {
    if s != [] {
      assert s[0] in s;
      assert forall x :: x in s[1..] ==> x in s;
      FilterAll(s[1..], keep);
      assert [s[0]] + s[1..] == s;
    }
  }

  /** A filtered sequence keeps every key distinct when the original did. */
  lemma {:induction false} FilterUniqueBy<T, K>(s: seq<T>, keep: T -> bool, key: T -> K)
    requires UniqueBy(s, key)
    ensures UniqueBy(Filter(s, keep), key)
    decreases |s|
  {
    if s != [] {
      var t := s[1..];
      assert UniqueBy(t, key) by {
        forall i, j | 0 <= i < j < |t| ensures key(t[i]) != key(t[j]) {
          assert t[i] == s[i + 1] && t[j] == s[j + 1];
        }
      }
      FilterUniqueBy(t, keep, key);
      var ft := Filter(t, keep);
      if keep(s[0]) {
        var r := [s[0]] + ft;
        forall i, j | 0 <= i < j < |r| ensures key(r[i]) != key(r[j]) {
          if i == 0 {
            assert r[j] == ft[j - 1];
            assert r[j] in t;
            var m :| 0 <= m < |t| && t[m] == r[j];
            assert s[m + 1] == r[j];
          } else {
            assert r[i] == ft[i - 1] && r[j] == ft[j - 1];
          }
        }
      }
    }
  }

  /** Filtering with a test no element passes leaves nothing. */
  lemma {:induction false} FilterNone<T>(s: seq<T>, keep: T -> bool)
    requires forall x | x in s :: !keep(x)
    ensures Filter(s, keep) == []
    decreases |s|
  {
    if s != [] {
      assert s[0] in s;
      assert forall x | x in s[1..] :: x in s;
      FilterNone(s[1..], keep);
    }
  }

  /** Removing the elements that carry key `k`, from a sequence whose keys are distinct
      and whose position `i` carries `k`, removes exactly position `i`. */
  lemma FilterOutKey<T, K>(s: seq<T>, key: T -> K, keep: T -> bool, i: nat)
    requires UniqueBy(s, key)
    requires i < |s|
    requires forall x :: keep(x) <==> key(x) != key(s[i])
    ensures Filter(s, keep) == s[..i] + s[i + 1..]
  {
    var a, b := s[..i], s[i + 1..];
    assert Filter(a, keep) == a by {
      KeptBefore(s, key, keep, i);
      FilterAll(a, keep);
    }
    assert Filter(b, keep) == b by {
      KeptAfter(s, key, keep, i);
      FilterAll(b, keep);
    }
    assert Filter([s[i]], keep) == [] by {
      FilterNone([s[i]], keep);
    }
    SplitAt(s, i);
    FilterDropMiddle(a, [s[i]], b, keep);
  }

  lemma SplitAt<T>(s: seq<T>, i: nat)
    requires i < |s|
    ensures s == s[..i] + [s[i]] + s[i + 1..]
  {
  }

  /** Filtering keeps the outer parts of `a + m + b` and drops the middle, when it keeps
      all of `a` and `b` and none of `m`. */
  lemma FilterDropMiddle<T>(a: seq<T>, m: seq<T>, b: seq<T>, keep: T -> bool)
    requires Filter(a, keep) == a && Filter(m, keep) == [] && Filter(b, keep) == b
    ensures Filter(a + m + b, keep) == a + b
  {
    FilterAppend(a, m, keep);
    assert Filter(a + m, keep) == a;
    FilterAppend(a + m, b, keep);
  }

  lemma KeptBefore<T, K>(s: seq<T>, key: T -> K, keep: T -> bool, i: nat)
    requires UniqueBy(s, key)
    requires i < |s|
    requires forall x :: keep(x) <==> key(x) != key(s[i])
    ensures forall x | x in s[..i] :: keep(x)
  {
    forall x | x in s[..i] ensures keep(x) {
      var m :| 0 <= m < i && s[..i][m] == x;
      assert s[m] == x;
    }
  }

  lemma KeptAfter<T, K>(s: seq<T>, key: T -> K, keep: T -> bool, i: nat)
    requires UniqueBy(s, key)
    requires i < |s|
    requires forall x :: keep(x) <==> key(x) != key(s[i])
    ensures forall x | x in s[i + 1..] :: keep(x)
  {
    forall x | x in s[i + 1..] ensures keep(x) {
      var m :| 0 <= m < |s[i + 1..]| && s[i + 1..][m] == x;
      assert s[i + 1 + m] == x;
    }
  }
}

=== FILE: views.dfy ===
/** The request handlers that change the store: adding equipment (which schedules its
    first three years of maintenance), adding, editing and deleting plans. The acting
    user and "today" are parameters. */
module Views {
  import opened Wrappers
  import opened Seqs
  import opened Models
  import opened Schedule
  import opened Forms
  import Deletion

  /** Plans for new equipment cover 36 months. */
  const InitialHorizonMonths := 36

  /** How many plans initial scheduling creates for a list of standards: for each
      standard with a positive frequency F, one plan per full period of the horizon. */
  function InitialCount(stds: seq<MaintenanceStandard>): nat
    decreases |stds|
  {
    if stds == [] then 0
    else
      var f := stds[0].frequencyMonths;
      (if f > 0 then InitialHorizonMonths / f else 0) + InitialCount(stds[1..])
  }

  /** The dates initial scheduling gives one standard: periods 1 .. 36 / F after
      installation, or none for a non-positive frequency. */
  function InitialDates(e: Equipment, s: MaintenanceStandard): seq<Date> {
    if s.frequencyMonths <= 0 then []
    else Project(e.installationDate, s.frequencyMonths, InitialHorizonMonths / s.frequencyMonths)
  }

  /** The initial dates of a standard lie strictly after installation and strictly
      increase. */
  lemma InitialDatesAfterInstallation(e: Equipment, s: MaintenanceStandard)
    ensures forall k | 0 <= k < |InitialDates(e, s)| :: InitialDates(e, s)[k] > e.installationDate
    ensures forall j, k | 0 <= j < k < |InitialDates(e, s)| :: InitialDates(e, s)[j] < InitialDates(e, s)[k]
  {
    if s.frequencyMonths > 0 {
      ProjectIncreasing(e.installationDate, s.frequencyMonths, InitialHorizonMonths / s.frequencyMonths);
    }
  }

  /** The maintenance types of the standards with a positive frequency. */
  function ScheduledTypes(stds: seq<MaintenanceStandard>): set<Id> {
    set s | s in stds && s.frequencyMonths > 0 :: s.maintenanceType
  }

  /** The plans initial scheduling creates for the standards `stds`, in order, with
      consecutive ids from `firstId`. No existing plan is consulted. */
  function InitialPlans(e: Equipment, stds: seq<MaintenanceStandard>, firstId: Id): (ps: seq<MaintenancePlan>)
    ensures |ps| == InitialCount(stds)
    ensures GeneratedFor(ps, 0, e.id)
    ensures forall k | 0 <= k < |ps| :: ps[k].id == firstId + k && ps[k].plannedDate > e.installationDate
    ensures forall k | 0 <= k < |ps| :: ps[k].maintenanceType in ScheduledTypes(stds)
    decreases |stds|
  {
    if stds == [] then []
    else
      var s := stds[0];
      var block := PlansAt(firstId, e.id, s.maintenanceType, InitialDates(e, s));
      var rest := InitialPlans(e, stds[1..], firstId + |block|);
      InitialDatesAfterInstallation(e, s);
      assert ScheduledTypes(stds[1..]) <= ScheduledTypes(stds) by {
        assert forall t | t in stds[1..] :: t in stds;
      }
      assert |block| > 0 ==> s.maintenanceType in ScheduledTypes(stds);
      block + rest
  }

  /** Schedules the plans of newly added equipment `e`: for each standard of its type
      with a positive frequency F, plans on days 30*F*i after installation for
      i = 1 .. 36 / F, all with status planned. */
  function CreateMaintenancePlans(db: Db, e: Equipment): (r: Run)
    ensures Appended(db, r.db, r.created)
    ensures GeneratedFor(r.db.plans, |db.plans|, e.id)
    ensures r.created == InitialCount(StandardsFor(db, e.equipmentType))
    ensures forall k | |db.plans| <= k < |r.db.plans| ::
      && r.db.plans[k].plannedDate > e.installationDate
      && r.db.plans[k].maintenanceType in ScheduledTypes(StandardsFor(db, e.equipmentType))
  {
    var stds := StandardsFor(db, e.equipmentType);
    var ps := InitialPlans(e, stds, db.nextId);
    var plans := db.plans + ps;
    assert plans[..|db.plans|] == db.plans;
    assert forall k | |db.plans| <= k < |plans| :: plans[k] == ps[k - |db.plans|];
    Run(db.(plans := plans, nextId := db.nextId + |ps|), |ps|)
  }

  /** Each standard of `stds` finds exactly its prescribed dates among the plans `ps` of
      equipment `e`. */
  predicate DatesPerStandard(e: Equipment, stds: seq<MaintenanceStandard>, ps: seq<MaintenancePlan>) {
    forall s | s in stds :: Dates(PlansOfPair(ps, e.id, s.maintenanceType)) == InitialDates(e, s)
  }

  /** For every standard of a list whose maintenance types are distinct, the plans
      initial scheduling creates for that standard's type carry exactly the dates
      `InitialDates` prescribes, in order. */
  lemma {:induction false} InitialPlansPerStandard(e: Equipment, stds: seq<MaintenanceStandard>, firstId: Id)
    requires UniqueBy(stds, StandardTypeKey)
    ensures DatesPerStandard(e, stds, InitialPlans(e, stds, firstId))
    decreases |stds|
  {
    if stds != [] {
      var tail, next := stds[1..], firstId + |InitialDates(e, stds[0])|;
      UniqueByTail(stds, StandardTypeKey);
      InitialPlansPerStandard(e, tail, next);
      InitialPlansStep(e, stds, firstId, tail, next);
    }
  }

  lemma InitialPlansStep(e: Equipment, stds: seq<MaintenanceStandard>, firstId: Id,
                          tail: seq<MaintenanceStandard>, next: Id)
    requires stds != [] && UniqueBy(stds, StandardTypeKey)
    requires tail == stds[1..] && next == firstId + |InitialDates(e, stds[0])|
    requires DatesPerStandard(e, tail, InitialPlans(e, tail, next))
    ensures DatesPerStandard(e, stds, InitialPlans(e, stds, firstId))
  {
    var rest := InitialPlans(e, tail, next);
    InitialPlansUnfold(e, stds, firstId, tail, next);
    TailTypesDiffer(stds, rest);
    CombineBlocks(e, stds, firstId, rest, InitialPlans(e, stds, firstId));
  }

  /** The plans of a non-empty list of standards: the head's block, then the tail's. */
  lemma InitialPlansUnfold(e: Equipment, stds: seq<MaintenanceStandard>, firstId: Id,
                            tail: seq<MaintenanceStandard>, next: Id)
    requires stds != [] && tail == stds[1..] && next == firstId + |InitialDates(e, stds[0])|
    ensures InitialPlans(e, stds, firstId)
      == PlansAt(firstId, e.id, stds[0].maintenanceType, InitialDates(e, stds[0])) + InitialPlans(e, tail, next)
  {
  }

  /** One induction step of `InitialPlansPerStandard`: the head standard's block followed
      by the tail's plans. */
  lemma CombineBlocks(e: Equipment, stds: seq<MaintenanceStandard>, firstId: Id, rest: seq<MaintenancePlan>,
                      all: seq<MaintenancePlan>)
    requires stds != [] && UniqueBy(stds, StandardTypeKey)
    requires forall p | p in rest :: p.maintenanceType != stds[0].maintenanceType
    requires DatesPerStandard(e, stds[1..], rest)
    requires all == PlansAt(firstId, e.id, stds[0].maintenanceType, InitialDates(e, stds[0])) + rest
    ensures DatesPerStandard(e, stds, all)
  {
    var s0 := stds[0];
    var block := PlansAt(firstId, e.id, s0.maintenanceType, InitialDates(e, s0));
    forall s | s in stds
      ensures Dates(PlansOfPair(block + rest, e.id, s.maintenanceType)) == InitialDates(e, s)
    {
      if s == s0 {
        HeadBlockOnly(e, s0, firstId, rest);
      } else {
        var j :| 0 <= j < |stds| && stds[j] == s;
        assert stds[1..][j - 1] == s;
        assert StandardTypeKey(stds[0]) != StandardTypeKey(stds[j]);
        SkipOtherBlock(e, s0, firstId, rest, s.maintenanceType);
      }
    }
  }

  /** Plans scheduled for the tail of a list of standards with distinct maintenance
      types never have the head's type. */
  lemma TailTypesDiffer(stds: seq<MaintenanceStandard>, rest: seq<MaintenancePlan>)
    requires UniqueBy(stds, StandardTypeKey) && stds != []
    requires forall k | 0 <= k < |rest| :: rest[k].maintenanceType in ScheduledTypes(stds[1..])
    ensures forall p | p in rest :: p.maintenanceType != stds[0].maintenanceType
  {
    forall p | p in rest ensures p.maintenanceType != stds[0].maintenanceType {
      var k :| 0 <= k < |rest| && rest[k] == p;
      var t :| t in stds[1..] && t.frequencyMonths > 0 && t.maintenanceType == p.maintenanceType;
      var j :| 0 <= j < |stds[1..]| && stds[1..][j] == t;
      assert stds[j + 1] == t;
    }
  }

  /** The plans of the head standard's pair are exactly its block. */
  lemma HeadBlockOnly(e: Equipment, s0: MaintenanceStandard, firstId: Id, rest: seq<MaintenancePlan>)
    requires forall p | p in rest :: p.maintenanceType != s0.maintenanceType
    ensures var block := PlansAt(firstId, e.id, s0.maintenanceType, InitialDates(e, s0));
      Dates(PlansOfPair(block + rest, e.id, s0.maintenanceType)) == InitialDates(e, s0)
  {
    var block := PlansAt(firstId, e.id, s0.maintenanceType, InitialDates(e, s0));
    FilterAppend(block, rest, PairTest(e.id, s0.maintenanceType));
    BlockOfOwnType(e, s0, firstId);
    NoPlansOfType(rest, e.id, s0.maintenanceType);
    assert block + [] == block;
  }

  /** The head standard's block holds no plan of another maintenance type. */
  lemma SkipOtherBlock(e: Equipment, s0: MaintenanceStandard, firstId: Id, rest: seq<MaintenancePlan>, mt: Id)
    requires mt != s0.maintenanceType
    ensures var block := PlansAt(firstId, e.id, s0.maintenanceType, InitialDates(e, s0));
      PlansOfPair(block + rest, e.id, mt) == PlansOfPair(rest, e.id, mt)
  {
    var block := PlansAt(firstId, e.id, s0.maintenanceType, InitialDates(e, s0));
    FilterAppend(block, rest, PairTest(e.id, mt));
    NoPlansOfType(block, e.id, mt);
    assert [] + PlansOfPair(rest, e.id, mt) == PlansOfPair(rest, e.id, mt);
  }

  /** The block generated for one standard consists only of plans of that standard's
      pair, dated as prescribed. */
  lemma BlockOfOwnType(e: Equipment, s: MaintenanceStandard, firstId: Id)
    ensures var block := PlansAt(firstId, e.id, s.maintenanceType, InitialDates(e, s));
      PlansOfPair(block, e.id, s.maintenanceType) == block
      && Dates(block) == InitialDates(e, s)
  {
    var block := PlansAt(firstId, e.id, s.maintenanceType, InitialDates(e, s));
    FilterAll(block, PairTest(e.id, s.maintenanceType));
  }

  /** A pair has no plans among plans of other maintenance types. */
  lemma NoPlansOfType(ps: seq<MaintenancePlan>, equipment: Id, maintenanceType: Id)
    requires forall p | p in ps :: p.maintenanceType != maintenanceType
    ensures PlansOfPair(ps, equipment, maintenanceType) == []
  {
    FilterNone(ps, PairTest(equipment, maintenanceType));
  }

  /** With the store invariant, each standard of the equipment's type gets exactly its
      prescribed dates. */
  lemma CreateMaintenancePlansSchedule(db: Db, e: Equipment)
    requires Valid(db)
    ensures var r := CreateMaintenancePlans(db, e);
      forall s | s in db.standards && s.equipmentType == e.equipmentType ::
        Dates(PlansOfPair(r.db.plans[|db.plans|..], e.id, s.maintenanceType)) == InitialDates(e, s)
  {
    var stds := StandardsFor(db, e.equipmentType);
    StandardsForDistinctTypes(db, e.equipmentType);
    InitialPlansPerStandard(e, stds, db.nextId);
    var r := CreateMaintenancePlans(db, e);
    assert r.db.plans[|db.plans|..] == InitialPlans(e, stds, db.nextId);
  }

  /** Errors a handler reports: a missing row (a 404 page) or a rejected form. */
  datatype ViewError = NotFound | Invalid(errors: seq<FormError>)

  /** The equipment row a valid form describes; it takes the next unused id. */
  function FormEquipment(db: Db, f: EquipmentForm): Equipment
    requires f.equipmentType.Some? && f.installationDate.Some?
  {
    Equipment(db.nextId, f.name, f.inventoryNumber, f.equipmentType.value, f.installationDate.value)
  }

  /** The store with equipment `e` appended and its id used up. */
  function StoreEquipment(db: Db, e: Equipment): (r: Db)
    ensures r.equipment == db.equipment + [e] && r.nextId == db.nextId + 1
    ensures r == db.(equipment := r.equipment, nextId := r.nextId)
  {
    db.(equipment := db.equipment + [e], nextId := db.nextId + 1)
  }

  /** Adds equipment from the form and schedules its plans. `created` counts the plans. */
  function AddEquipment(db: Db, f: EquipmentForm): (r: Result<Run, ViewError>)
    ensures r.Ok? <==> EquipmentFormErrors(db, f) == []
    ensures r.Err? ==> r.error == Invalid(EquipmentFormErrors(db, f))
    ensures r.Ok? ==>
      var e := FormEquipment(db, f);
      && r.value == CreateMaintenancePlans(StoreEquipment(db, e), e)
      && Appended(StoreEquipment(db, e), r.value.db, r.value.created)
      && GeneratedFor(r.value.db.plans, |db.plans|, e.id)
      && r.value.created == InitialCount(StandardsFor(db, e.equipmentType))
  {
    var errors := EquipmentFormErrors(db, f);
    if errors != [] then Err(Invalid(errors))
    else
      var e := FormEquipment(db, f);
      Ok(CreateMaintenancePlans(StoreEquipment(db, e), e))
  }

  /** Scheduling the plans of equipment already in the store keeps the store invariant:
      every new plan refers to that equipment and to the maintenance type of one of its
      standards, and takes a fresh id. */
  lemma CreateMaintenancePlansValid(db: Db, e: Equipment)
    requires Valid(db) && HasEquipment(db, e.id)
    ensures Valid(CreateMaintenancePlans(db, e).db)
  {
    var r := CreateMaintenancePlans(db, e);
    forall k | |db.plans| <= k < |r.db.plans| ensures HasMaintenanceType(db, r.db.plans[k].maintenanceType) {
      var s :| s in StandardsFor(db, e.equipmentType) && s.frequencyMonths > 0
        && s.maintenanceType == r.db.plans[k].maintenanceType;
    }
    AppendedValid(db, r.db, r.created, e.id);
  }

  /** Storing equipment whose id is fresh, whose inventory number is unused and whose
      type exists keeps the store invariant. */
  lemma StoreEquipmentValid(db: Db, e: Equipment)
    requires Valid(db) && e.id == db.nextId
    requires !InventoryNumberTaken(db, e.inventoryNumber) && HasEquipmentType(db, e.equipmentType)
    ensures Valid(StoreEquipment(db, e))
  {
    var mid := StoreEquipment(db, e);
    var eqs := mid.equipment;
    assert forall x | x in eqs :: x in db.equipment || x == e;
    forall i, j | 0 <= i < j < |eqs| ensures eqs[i].id != eqs[j].id && eqs[i].inventoryNumber != eqs[j].inventoryNumber {
      if j == |db.equipment| {
        assert eqs[i] in db.equipment;
      } else {
        assert eqs[i] == db.equipment[i] && eqs[j] == db.equipment[j];
      }
    }
    forall p | p in mid.plans ensures PlanRefsOk(mid, p) {
      assert PlanRefsOk(db, p);
      var x :| x in db.equipment && x.id == p.equipment;
      assert x in eqs;
    }
  }

  /** Adding equipment keeps the store invariant: the inventory number stays unique, the
      new id is fresh, and every scheduled plan refers to existing rows. */
  lemma AddEquipmentValid(db: Db, f: EquipmentForm)
    requires Valid(db)
    requires AddEquipment(db, f).Ok?
    ensures Valid(AddEquipment(db, f).value.db)
  {
    var e := FormEquipment(db, f);
    var mid := StoreEquipment(db, e);
    StoreEquipmentValid(db, e);
    assert HasEquipment(mid, e.id) by { assert mid.equipment[|db.equipment|] == e; }
    CreateMaintenancePlansValid(mid, e);
  }

  /** Creates a plan by hand; the acting user is recorded as its creator. */
  function AddPlan(db: Db, f: PlanForm, actor: UserId): (r: Result<Db, ViewError>)
    ensures r.Ok? <==> PlanFormErrors(db, f) == []
    ensures r.Err? ==> r.error == Invalid(PlanFormErrors(db, f))
    ensures r.Ok? ==>
      && |r.value.plans| == |db.plans| + 1
      && r.value.plans[..|db.plans|] == db.plans
      && r.value == db.(plans := r.value.plans, nextId := db.nextId + 1)
      && var p := r.value.plans[|db.plans|];
         && p.id == db.nextId
         && Some(p.equipment) == f.equipment && Some(p.maintenanceType) == f.maintenanceType
         && Some(p.plannedDate) == f.plannedDate && Some(p.status) == f.status
         && p.actualDate == f.actualDate && p.notes == f.notes
         && p.createdBy == Some(actor) && p.updatedBy == None
  {
    var errors := PlanFormErrors(db, f);
    if errors != [] then Err(Invalid(errors))
    else
      var p := MaintenancePlan(db.nextId, f.equipment.value, f.maintenanceType.value, f.plannedDate.value,
                               f.actualDate, f.status.value, f.notes, Some(actor), None);
      assert (db.plans + [p])[..|db.plans|] == db.plans;
      Ok(db.(plans := db.plans + [p], nextId := db.nextId + 1))
  }

  lemma AddPlanValid(db: Db, f: PlanForm, actor: UserId)
    requires Valid(db) && actor in db.users
    requires AddPlan(db, f, actor).Ok?
    ensures Valid(AddPlan(db, f, actor).value)
  {
    var r := AddPlan(db, f, actor).value;
    var n := |db.plans|;
    forall p | p in r.plans ensures PlanRefsOk(r, p) && p.id < r.nextId {
      var k :| 0 <= k < |r.plans| && r.plans[k] == p;
      if k < n {
        assert r.plans[..n][k] == p;
      }
    }
    forall i, j | 0 <= i < j < |r.plans| ensures r.plans[i].id != r.plans[j].id {
      assert r.plans[..n][i] == r.plans[i];
      if j < n {
        assert r.plans[..n][j] == r.plans[j];
      } else {
        assert r.plans[i] in db.plans;
      }
    }
  }

  /** The position of the first plan with primary key `id`. */
  function FindPlan(plans: seq<MaintenancePlan>, id: Id): (r: Option<nat>)
    ensures r.Some? ==> r.value < |plans| && plans[r.value].id == id
    ensures r.Some? ==> forall k | 0 <= k < r.value :: plans[k].id != id
    ensures r.None? ==> forall p | p in plans :: p.id != id
    decreases |plans|
  {
    if plans == [] then None
    else if plans[0].id == id then Some(0)
    else
      match FindPlan(plans[1..], id)
      case None => None
      case Some(k) => Some(k + 1)
  }

  /** The saved plan `after` is the stored plan `before` edited through form `f` by
      `actor` on day `today`: only status, actual date and notes take the submitted
      values, the editor becomes `actor`, and a plan saved as completed without an
      actual date gets `today`. */
  predicate EditedFrom(before: MaintenancePlan, after: MaintenancePlan, f: PlanEditForm, actor: UserId, today: Date) {
    && after == before.(status := after.status, actualDate := after.actualDate,
                        notes := after.notes, updatedBy := after.updatedBy)
    && Some(after.status) == f.status
    && after.notes == f.notes
    && after.updatedBy == Some(actor)
    && (f.actualDate.Some? ==> after.actualDate == f.actualDate)
    && (f.actualDate.None? ==> (after.actualDate.Some? <==> after.status == Completed))
    && (f.actualDate.None? && after.actualDate.Some? ==> after.actualDate.value == today)
  }

  /** Saves the edit form for plan `id`. */
  function EditPlan(db: Db, id: Id, f: PlanEditForm, actor: UserId, today: Date): (r: Result<Db, ViewError>)
    ensures r == Err(NotFound) <==> !HasPlan(db, id)
    ensures forall k | 0 <= k < |db.plans| && db.plans[k].id == id && UniqueBy(db.plans, PlanKey) ::
      && (r.Ok? <==> PlanEditFormErrors(db.plans[k], f) == [])
      && (r.Err? ==> r.error == Invalid(PlanEditFormErrors(db.plans[k], f)))
    ensures r.Ok? ==> exists k | 0 <= k < |db.plans| ::
      && db.plans[k].id == id
      && |r.value.plans| == |db.plans|
      && r.value == db.(plans := db.plans[k := r.value.plans[k]])
      && EditedFrom(db.plans[k], r.value.plans[k], f, actor, today)
  {
    match FindPlan(db.plans, id)
    case None => Err(NotFound)
    case Some(k) =>
      assert forall j | 0 <= j < |db.plans| && db.plans[j].id == id && UniqueBy(db.plans, PlanKey) :: j == k;
      var stored := db.plans[k];
      var errors := PlanEditFormErrors(stored, f);
      if errors != [] then Err(Invalid(errors))
      else
        var status := f.status.value;
        var actual := if status == Completed && f.actualDate.None? then Some(today) else f.actualDate;
        var saved := stored.(status := status, actualDate := actual, notes := f.notes, updatedBy := Some(actor));
        Ok(db.(plans := db.plans[k := saved]))
  }

  /** After a successful edit, the edited plan is completed only with an actual date, and
      the plan's equipment, maintenance type, planned date and creator are unchanged. */
  lemma EditPlanKeepsSchedule(db: Db, id: Id, f: PlanEditForm, actor: UserId, today: Date)
    requires EditPlan(db, id, f, actor, today).Ok?
    ensures var r := EditPlan(db, id, f, actor, today).value;
      exists k | 0 <= k < |db.plans| && db.plans[k].id == id ::
        && (r.plans[k].status == Completed ==> r.plans[k].actualDate.Some?)
        && SlotOf(r.plans[k]) == SlotOf(db.plans[k])
        && r.plans[k].createdBy == db.plans[k].createdBy
        && (forall j | 0 <= j < |db.plans| && j != k :: r.plans[j] == db.plans[j])
  {
    var r := EditPlan(db, id, f, actor, today).value;
    var k :| 0 <= k < |db.plans| && db.plans[k].id == id && |r.plans| == |db.plans|
      && r == db.(plans := db.plans[k := r.plans[k]])
      && EditedFrom(db.plans[k], r.plans[k], f, actor, today);
    assert r.plans[k].status == Completed ==> r.plans[k].actualDate.Some?;
  }

  lemma EditPlanValid(db: Db, id: Id, f: PlanEditForm, actor: UserId, today: Date)
    requires Valid(db) && actor in db.users
    requires EditPlan(db, id, f, actor, today).Ok?
    ensures Valid(EditPlan(db, id, f, actor, today).value)
  {
    var r := EditPlan(db, id, f, actor, today).value;
    var k :| 0 <= k < |db.plans| && db.plans[k].id == id && |r.plans| == |db.plans|
      && r == db.(plans := db.plans[k := r.plans[k]])
      && EditedFrom(db.plans[k], r.plans[k], f, actor, today);
    assert db.plans[k] in db.plans;
    ReplacePlanValid(db, k, r.plans[k]);
  }

  /** Overwriting a stored plan with one of the same id whose references resolve keeps
      the store invariant. */
  lemma ReplacePlanValid(db: Db, k: nat, p: MaintenancePlan)
    requires Valid(db) && k < |db.plans| && p.id == db.plans[k].id && PlanRefsOk(db, p)
    ensures Valid(db.(plans := db.plans[k := p]))
  {
    var r := db.(plans := db.plans[k := p]);
    assert db.plans[k] in db.plans;
    forall q | q in r.plans ensures PlanRefsOk(r, q) && q.id < r.nextId {
      var j :| 0 <= j < |r.plans| && r.plans[j] == q;
      assert db.plans[j] in db.plans;
    }
    forall i, j | 0 <= i < j < |r.plans| ensures r.plans[i].id != r.plans[j].id {
      assert r.plans[i].id == db.plans[i].id && r.plans[j].id == db.plans[j].id;
    }
  }

  /** Deletes plan `id`, answering "not found" when there is none. */
  function DeletePlan(db: Db, id: Id): (r: Result<Db, ViewError>)
    ensures r.Err? <==> !HasPlan(db, id)
    ensures r.Err? ==> r.error == NotFound
    ensures r.Ok? && UniqueBy(db.plans, PlanKey) ==> exists k | 0 <= k < |db.plans| ::
      && db.plans[k].id == id
      && r.value == db.(plans := db.plans[..k] + db.plans[k + 1..])
  {
    if !HasPlan(db, id) then Err(NotFound)
    else
      Ok(Deletion.RemovePlan(db, id))
  }
}

=== FILE: wrappers.dfy ===
/** Option and Result datatypes for absent values and error returns. */
module Wrappers {

  /** A value that may be missing (a nullable column, a lookup that finds nothing). */
  datatype Option<+T> = None | Some(value: T)

  /** The outcome of an operation that can be refused with an error. */
  datatype Result<+T, +E> = Ok(value: T) | Err(error: E)
}
